=== FILE: README.md ===
# Task manager core in Dafny

A model of the task-manager core of a Laravel/React application, with proofs about it. The
core covers:

- the dashboard statistics endpoint: status counts, overdue and due-today counts, a left-join
  count per category, and a group-by count per priority;
- the task controller: owner-scoped listing ordered by due date, validated creation with
  server-forced owner and status, and update and deletion behind an ownership guard;
- the task list page: its three-facet filter, and the quick status change that sends only a
  status;
- the dashboard page: the "recent" and "upcoming" lists, the overdue marker and status
  colour, the status label, and the rounded percentages on the cards;
- the `tasks` table's migration: enum domains, column defaults, cascade on user delete, and
  null-on-delete for the category reference.

The database is an immutable `Schema.Store` holding users, categories, tasks and the
auto-increment counter. `Schema.Valid` is the invariant the table's keys and constraints
guarantee. Each controller action is a pure function from a store and a request to a
`Result`: either the new store or the error the request ends in. An error never writes.
`TaskController.Step` runs one action as a state transition.

Modules, in dependency order:

- `Wrappers`: `Option` and `Result`.
- `Seqs`: selection (`Keep`), counting (`Count`) and subsequences, with the lemmas about them.
- `Sorting`: sorting by a comparator (insertion sort over a total preorder) and `Take`.
- `Text`: splitting, joining, capitalising, and decimal printing and parsing.
- `Tasks`: the `Task` and `Category` records, the status and priority enums and their names
  (resources/js/types/Task.ts).
- `Schema`: the table's invariant, its defaults, and the user and category delete rules.
- `TaskController`: `index`, `store`, `update` and `destroy`.
- `DashboardStats`: `getStats`.
- `TaskIndexPage`: the facet filter and `handleStatusChange` (resources/js/pages/Tasks/Index.tsx).
- `DashboardPage`: the derivations in resources/js/pages/dashboard.tsx.

Time is explicit:

- A due date is a day number (`Day`).
- The server clock is `DashboardStats.Instant`, a day plus the second within it. This makes
  the SQL comparison of a DATE column with a timestamp (`due_date < now`) concrete: the date
  stands for its midnight, as MySQL reads it.
- The browser clock is a millisecond count. `new Date(due_date)` is midnight of that day, and
  `new Date(null)` is the epoch.

Behaviour of the code that the model makes explicit:

- On MySQL, an open task due today is counted in both `overdue` and `due_today` from one
  second past midnight. The query compares a DATE column with the current timestamp
  (app/Http/Controllers/DashboardController.php:25; `DashboardStats.DueTodayOverlapsOverdue`).
  For a table holding a pending task due yesterday, a completed one due yesterday and a
  pending one due today, `overdue` is 1 only at exactly midnight and 2 at any later second of
  the day (`DashboardStats.ThreeTaskScenario`).
- The task routes are registered outside the `auth` middleware group (routes/web.php:17), so
  the current user is an `Option<UserId>`. For a guest:
  - `index` lists nothing.
  - `store` fails on the NOT NULL `user_id` column (`ConstraintViolation`).
  - `update` and `destroy` are `Forbidden`, because no owner is `!==` null.
- A missing task is a `NotFound` error, not a precondition. Route-model binding reports it
  before the ownership guard runs.
- The framework's `ConvertEmptyStringsToNull` middleware is modelled. The create form sends
  `''` for every optional field it leaves empty (resources/js/pages/Tasks/Create.tsx:16-22),
  so an empty string counts as null for every rule (`TaskController.Normalize`).
- `update` saves, and moves `updated_at`, only when some column actually changes (Eloquent's
  dirty check). The model compares the values as it stores them; see the
  `TaskController.Update` line under "Left out".

## Model

| member | source | states |
|---|---|---|
| Tasks.ParseStatus | database/migrations/2025_02_26_161423_create_tasks_table.php:21 | the status column accepts exactly the three names pending, in_progress and completed, each read back as the status whose name it is |
| Tasks.ParsePriority | database/migrations/2025_02_26_161423_create_tasks_table.php:22 | the priority column accepts exactly low, medium and high, each read back as its priority |
| Schema.InsertRow | database/migrations/2025_02_26_161423_create_tasks_table.php:14-23 | an INSERT that omits status stores pending and one that omits priority stores low; every supplied column is stored as given, and both timestamps are the insert time |
| Schema.DeleteUser | database/migrations/2025_02_26_161423_create_tasks_table.php:16 | deleting a user removes exactly that user's tasks, keeps every other task in its order and the categories unchanged, and the table stays valid |
| Schema.DeleteCategory | database/migrations/2025_02_26_161423_create_tasks_table.php:17 | deleting a category removes exactly that category row and keeps the others unchanged and in order; it keeps every task, tasks that referenced it get a null category, every other column and every other task is unchanged, and no reference dangles |
| TaskController.Index | app/Http/Controllers/TaskController.php:17-22 | the list holds exactly the current user's tasks, each as often as it is stored, and the dated ones in ascending due-date order; a guest gets nothing |
| TaskController.Create | app/Http/Controllers/TaskController.php:47-60 | a request with failing fields is sent back with exactly those fields; otherwise a task is appended with the next id, owner the current user and status pending whatever the request says, title, priority, description, due date and category from the request, and nothing else changes |
| TaskController.StoreRejects | app/Http/Controllers/TaskController.php:49-55 | a missing, blank or longer-than-255 title, a missing or unknown priority, a category id naming no category, whether a number or the decimal text the form sends, and a category that is text but not a number each fail validation on their own field |
| TaskController.StoreAcceptsAnyOwnersCategory | app/Http/Controllers/TaskController.php:54 | any existing category is accepted and stored on the new task, whoever owns it |
| TaskController.Update | app/Http/Controllers/TaskController.php:87-103 | an unknown id is NotFound; a task the user does not own is Forbidden before any validation; failing keys are sent back; otherwise each key present replaces its column, absent keys keep theirs, owner and creation time stay, every other task is unchanged, and updated_at moves only when a stored value changed |
| TaskController.Destroy | app/Http/Controllers/TaskController.php:112-119 | an unknown id is NotFound and someone else's task Forbidden; the owner's delete removes exactly that task and keeps the table valid |
| TaskController.Step | app/Http/Controllers/TaskController.php:87-119 | every action keeps the table valid and never changes a surviving task's owner or creation time; an update or delete by anyone but the owner leaves the store as it was |
| DashboardStats.ComputeTaskStats | app/Http/Controllers/DashboardController.php:19-30 | total is the number of tasks of every owner; completed, in progress and pending are each exactly the number of tasks with that status, and add up to the total; overdue is exactly the number of open tasks due on an earlier day, or today once the clock is past midnight (MySQL's reading of the comparison); due-today is exactly the number of open tasks due today |
| DashboardStats.AppendedTaskCountedOnce | app/Http/Controllers/DashboardController.php:19-23 | one more task adds one to the total and one to the counter of its own status, and leaves the other two status counters as they were |
| DashboardStats.OverdueByCalendar | app/Http/Controllers/DashboardController.php:24-26 | on a valid clock, the tasks `due_date < now` selects as MySQL reads it are the open ones due on an earlier day, or today after midnight |
| DashboardStats.UncountedTaskIgnored | app/Http/Controllers/DashboardController.php:24-29 | adding a completed task, or one without a due date, changes neither the overdue nor the due-today count and adds one to the total |
| DashboardStats.StatusCountsPartition | app/Http/Controllers/DashboardController.php:21-23 | the completed, in-progress and pending counts add up to the number of tasks |
| DashboardStats.DueBeforeMeaning | app/Http/Controllers/DashboardController.php:25 | as MySQL compares a date with a timestamp, a due date is before now exactly when it is an earlier day, or today once the clock is past midnight |
| DashboardStats.OverdueMonotone | app/Http/Controllers/DashboardController.php:24-26 | a task counted overdue stays counted at every later instant, so the overdue count never decreases over an unchanged table |
| DashboardStats.DueTodayOverlapsOverdue | app/Http/Controllers/DashboardController.php:24-29 | an open task due today is counted due today, and, on MySQL's reading, also overdue exactly when the clock is past midnight |
| DashboardStats.CompletedDueDateIrrelevant | app/Http/Controllers/DashboardController.php:24-29 | changing or removing a completed task's due date changes neither the overdue nor the due-today count |
| DashboardStats.ThreeTaskScenario | app/Http/Controllers/DashboardController.php:19-30 | pending due yesterday, completed due yesterday and pending due today give total 3, completed 1, due today 1, and overdue 1 at midnight or 2 at any later second on MySQL's reading |
| DashboardStats.CategoryStats | app/Http/Controllers/DashboardController.php:33-37 | one entry per category, with its id and name and the exact number of tasks referencing it, zero exactly when no task references it |
| DashboardStats.CategoryCountsSum | app/Http/Controllers/DashboardController.php:33-37 | the category counts add up to the number of tasks whose category is one of the categories; uncategorised tasks count nowhere |
| DashboardStats.GroupByPriority | app/Http/Controllers/DashboardController.php:40-43 | over distinct values, one entry per value some task has and none for the others, no duplicates, each the exact positive count, summing to the tasks whose priority is among the values |
| DashboardStats.PriorityStats | app/Http/Controllers/DashboardController.php:40-43 | an entry exactly for each priority that occurs, no duplicates, none counting zero, each the exact count, summing to the number of tasks |
| DashboardStats.GetStats | app/Http/Controllers/DashboardController.php:13-50 | the response's total covers every task, its status counts add up to it, and it lists every category |
| TaskIndexPage.FilterTasks | resources/js/pages/Tasks/Index.tsx:21-25 | the shown tasks are an order-preserving subsequence of the list, holding exactly the tasks that pass every active facet, each as often as it occurs in the list; a task shown under a category facet has a category whose decimal id is that facet |
| TaskIndexPage.FilterNoFacetsIsIdentity | resources/js/pages/Tasks/Index.tsx:17-25 | with all three selects on "all" the list is shown unchanged |
| TaskIndexPage.FilterIdempotent | resources/js/pages/Tasks/Index.tsx:21-25 | filtering the shown list again changes nothing |
| TaskIndexPage.FilterIsIntersection | resources/js/pages/Tasks/Index.tsx:21-25 | the filter equals the status-only, priority-only and category-only filters applied one after another |
| TaskIndexPage.FilterCommutes | resources/js/pages/Tasks/Index.tsx:21-25 | two facet selections applied in either order give the same list |
| TaskIndexPage.CategoryFacetSelectsCategory | resources/js/pages/Tasks/Index.tsx:24 | choosing a category (its non-zero id as text, as the select's options write it) shows exactly the tasks referencing it that pass the other facets; an uncategorised task never shows |
| TaskIndexPage.StatusChangePayload | resources/js/pages/Tasks/Index.tsx:33-37 | the quick status change sends the status and no other key |
| TaskIndexPage.QuickStatusChange | resources/js/pages/Tasks/Index.tsx:33-37 | the owner's quick change to any status from any status succeeds, sets that status, leaves title, priority, due date, category, owner and every other task unchanged, and leaves the task untouched when the status is the same |
| TaskIndexPage.StatusChangeValidated | app/Http/Controllers/TaskController.php:99 | by the owner, a status-only update succeeds exactly for the three status names and is otherwise sent back on the status field alone |
| DashboardPage.Recent | resources/js/pages/dashboard.tsx:77-83 | at most five of the fetched tasks, newest update first, and no task left out was updated later than one shown |
| DashboardPage.Upcoming | resources/js/pages/dashboard.tsx:85-88 | at most five open tasks due from now on, earliest first; no eligible task left out is due before one shown; fewer than five means every eligible task is shown, as often as it was fetched; after the epoch only tasks with a due date qualify |
| DashboardPage.NoDueDateShownOverdue | resources/js/pages/dashboard.tsx:117-119 | as written, an open task without a due date is marked overdue, while the server's overdue counter leaves it out |
| DashboardPage.OverdueAgreesWithServer | resources/js/pages/dashboard.tsx:117-119 | the corrected marker agrees with the server's overdue counter at the same clock reading, and with the marker as written on every task that has a due date |
| DashboardPage.StatusColor | resources/js/pages/dashboard.tsx:44-48 | no status colour is the overdue red |
| DashboardPage.StatusColorsDistinct | resources/js/pages/dashboard.tsx:44-48 | the three statuses have three different colours |
| DashboardPage.GetStatusColorAsWritten | resources/js/pages/dashboard.tsx:125-130 | as written: red exactly when the marker as written holds, which includes open tasks without a due date, otherwise the colour of its status |
| DashboardPage.GetStatusColor | resources/js/pages/dashboard.tsx:125-130 | corrected: red exactly when the task has a due date that has passed and is not completed, otherwise the colour of its status; a completed task always gets the completed colour |
| DashboardPage.StatusColorsDisagreeOnUndated | resources/js/pages/dashboard.tsx:117-130 | the colour as written and the corrected colour differ exactly on open tasks without a due date viewed after the epoch, which the code as written paints red |
| DashboardPage.FormatStatus | resources/js/pages/dashboard.tsx:121-123 | the label is the name with each underscore turned into a space and each word's first letter upper-cased when it is an ASCII letter, so it has the name's length |
| DashboardPage.FormatStatusLabel | resources/js/pages/dashboard.tsx:121-123 | pending, in_progress and completed are shown as "Pending", "In Progress" and "Completed" |
| Text.TitleWordsChars | resources/js/pages/dashboard.tsx:122 | split, capitalise each word and join equals the one-pass character rule |
| Text.JoinSplit | resources/js/pages/dashboard.tsx:122 | joining the parts of a split with the same separator gives the text back |
| Text.ParseShowDecimal | resources/js/pages/Tasks/Index.tsx:99 | reading back the decimal text of an id gives the id |
| DashboardPage.Percent | resources/js/pages/dashboard.tsx:164 | 0 when the total is 0; otherwise the whole percentage nearest to part/total, with halves rounded up |
| DashboardPage.PercentOfShare | resources/js/pages/dashboard.tsx:193 | a part of at most the total shows between 0 and 100, the whole shows 100, and nothing shows 0 |
| DashboardPage.CardPercentages | resources/js/pages/dashboard.tsx:155-196 | the in-progress and completed counts never exceed the total, so the page never divides a positive count by 0; both percentages lie between 0 and 100, both are 0 on an empty table; a non-empty table of completed tasks shows 100 completed and 0 in progress, and a table with no completed task shows 0 completed |

## Left out

- HTTP, Inertia rendering, redirects with flash messages, and the axios requests with their
  error logging are I/O. The model starts from the request values and the fetched lists.
- Dates are not parsed. The `date` rule's reading of a text is the parameter `DateParser`,
  and a numeric due date is rejected. The clocks (`Carbon::now`, `new Date()`) and insert
  times are parameters as well.
- The query reads `Carbon::now()` and `Carbon::today()` separately. The model reads one
  instant and takes its day as today.
- Time zones are not modelled. The server clock and the browser both read dates as UTC
  midnight.
- The model gives `due_date < now` the meaning MySQL gives it: the date stands for its
  midnight. Other databases read it differently, and the model does not cover them:
  - PostgreSQL receives the bound timestamp text untyped and reads it as a date, dropping the
    time. There an open task due today is never overdue, so `DashboardStats.DueTodayOverlapsOverdue`
    and the "2 at any later second" half of `DashboardStats.ThreeTaskScenario` do not hold.
  - SQLite compares the two as text, and `'2025-03-01' < '2025-03-01 00:00:00'` holds. There an
    open task due today is overdue from midnight itself.
- `orderBy('due_date')` leaves the position of null due dates to the database.
  `TaskController.Index` orders only the dated tasks among themselves.
- The model's sorts are not shown to be stable. No contract says how ties are ordered.
- DashboardStats.CategoryStats: the query has no ORDER BY, so the database chooses the row
  order. The model lists the entries in the order of the categories it is given.
- DashboardPage.FormatStatus: `toUpperCase` is modelled for ASCII letters only. JavaScript
  also upper-cases other letters, and some of them into more than one character (`ß` becomes
  `SS`). This does not affect the three status names.
- TaskController.Update: the model's dirty check compares the values after reading them (the
  parsed date, the category id as a number). Eloquent compares the stored attributes, so for
  example `"07"` against `7`, or two spellings of one date, count as a change there and move
  `updated_at`.
- TaskController.Index: the category relation loaded with `with('category')` is not part of
  the listed records.
- The framework's `TrimStrings` middleware is not modelled. `required` treats a whitespace-only
  title as missing, and a longer title is measured untrimmed.
- The mass-assignment list (`$fillable`) of the Task model is not part of this model. It is
  assumed to admit every validated key.
- PHP's `!==` between the stored `user_id` and `Auth::id()` is modelled as plain inequality of
  ids. Type juggling, such as an id arriving as a string, is not modelled.
- The nullability of `title`, the owner, `description`, `due_date` and `category_id` is carried
  by the field types: `string` and `UserId` versus `Option<…>`. No member states it.
- The categories table's own migration is not part of this model, so what deleting a user
  does to that user's categories is not modelled. `Schema.DeleteUser` keeps the categories as
  they are.
- DashboardPage.Percent: when the total is 0 and the part is not, the browser shows
  `Infinity`. The model shows 0. `DashboardPage.CardPercentages` proves each count is at most
  the total, so the statistics never produce that case.
- DashboardPage.Percent: the page rounds the floating-point value `(part / total) * 100`, while
  the model rounds the exact ratio. Near a half the two can differ by one: 23 of 40 is
  57.49999999999999 in floating point, so the page shows 57 where the model gives 58, and
  29 of 200 shows 14 where the model gives 15.
- The fetched task list not being reordered has no member of its own. Every sequence in the
  model is an immutable value, so sorting the copy cannot reach the list kept in state.
  `DashboardPage.ByRecency` models the in-place sort of the copy, which is then also the list
  the upcoming filter reads.
- `edit`, `create` and the category pages render forms and are not modelled. The ownership
  guard of `edit` is the same as that of `update`.
- The status label of the task list row (resources/js/pages/Tasks/Index.tsx:165), the priority
  colours, CSS classes and `toLocaleDateString` formatting are not modelled.
- routes/api.php:7 points to a controller method `apiIndex`, which is not part of this model.
- Concurrent requests (last write wins) are not modelled.

## Findings

| source | as written | input that shows it | evidently intended | confidence | as-written member | corrected member |
|---|---|---|---|---|---|---|
| resources/js/pages/dashboard.tsx:117-119 | `isOverdue` compares `new Date(dueDate)` with now, and `new Date(null)` is the epoch | an open (pending or in-progress) task with no due date, viewed at any time after 1970: marked overdue and coloured red in the recent list, while the overdue counter leaves it out | only a task with a due date can be overdue, as the server's counter decides | not executed | DashboardPage.NoDueDateShownOverdue | DashboardPage.OverdueAgreesWithServer |
| resources/js/pages/dashboard.tsx:125-130 | `getStatusColor` returns red whenever `isOverdue` holds, including for tasks without a due date | the same open task without a due date: the recent list shows its dot in `#ef4444` instead of its status colour | a task without a due date shows its status colour | not executed | DashboardPage.StatusColorsDisagreeOnUndated | DashboardPage.GetStatusColor |

=== FILE: dashboard_page.dfy ===
/**
 * The dashboard page's own derivations from the fetched task list: the five most recently
 * updated tasks, the next five due, the overdue marker and colour of a task, the status
 * label, and the rounded percentages on the summary cards.
 */
module DashboardPage {
  import opened Wrappers
  import opened Tasks
  import opened Seqs
  import opened Sorting
  import Text
  import DashboardStats

  const MsPerDay: int := 86_400_000
  const ListLimit: nat := 5

  /**
   * `new Date(due_date).getTime()`: a calendar date is read as its midnight (UTC), and a
   * missing due date as `new Date(null)`, the epoch.
   */
  function DueMs(t: Task): int
  {
    match t.dueDate
    case None => 0
    case Some(d) => d * MsPerDay
  }

  /** The comparator of the recent list: larger update time first. */
  function NewerFirst(a: Task, b: Task): bool { a.updatedAt >= b.updatedAt }

  /** The comparator of the upcoming list: earlier due instant first. */
  function EarlierDue(a: Task, b: Task): bool { DueMs(a) <= DueMs(b) }

  lemma ComparatorsAreTotal()
    ensures TotalPreorder(NewerFirst) && TotalPreorder(EarlierDue)
  {
  }

  /** The copy of the fetched list, sorted in place by recency; the fetched list itself keeps its order. */
  function ByRecency(fetched: seq<Task>): (r: seq<Task>)
    ensures SortedBy(r, NewerFirst)
    ensures multiset(r) == multiset(fetched)
  {
    ComparatorsAreTotal();
    SortBy(fetched, NewerFirst)
  }

  /**
   * The recent list: at most five tasks of the fetched list, newest first, and no task left
   * out was updated later than one shown.
   */
  function Recent(fetched: seq<Task>): (r: seq<Task>)
    ensures |r| == (if |fetched| < ListLimit then |fetched| else ListLimit)
    ensures multiset(r) <= multiset(fetched)
    ensures forall i, j :: 0 <= i < j < |r| ==> r[i].updatedAt >= r[j].updatedAt
    ensures forall t, u :: t in r && u in multiset(fetched) - multiset(r) ==> u.updatedAt <= t.updatedAt
  {
    var sorted := ByRecency(fetched);
    var r := Take(sorted, ListLimit);
    TakeOfSortedIsLeast(sorted, ListLimit, NewerFirst);
    forall i, j | 0 <= i < j < |r|
      ensures r[i].updatedAt >= r[j].updatedAt
    {
      assert r[i] == sorted[i] && r[j] == sorted[j];
      assert NewerFirst(sorted[i], sorted[j]);
    }
    forall t, u | t in r && u in multiset(fetched) - multiset(r)
      ensures u.updatedAt <= t.updatedAt
    {
      assert NewerFirst(t, u);
    }
    r
  }

  /** `t.status !== 'completed' && new Date(t.due_date) >= new Date()`. */
  predicate IsUpcoming(t: Task, nowMs: int)
  {
    t.status != Completed && DueMs(t) >= nowMs
  }

  /** The candidates sorted by due date, earliest first (a missing date sorting as the epoch). */
  function ByDueDate(candidates: seq<Task>): (r: seq<Task>)
    ensures SortedBy(r, EarlierDue)
    ensures multiset(r) == multiset(candidates)
  {
    ComparatorsAreTotal();
    SortBy(candidates, EarlierDue)
  }

  /**
   * What the upcoming list promises about `r`, drawn from `fetched` at `nowMs`: at most five
   * open tasks that were fetched and are due from now on, as often as they were fetched at most,
   * earliest first; after the epoch each has a due date; no eligible task left out is due before
   * one shown; and fewer than five shown means every eligible task is shown, as often as fetched.
   */
  ghost predicate UpcomingList(fetched: seq<Task>, nowMs: int, r: seq<Task>)
  {
    && |r| <= ListLimit
    && multiset(r) <= multiset(fetched)
    && (forall t :: t in r ==> t in fetched && t.status != Completed && DueMs(t) >= nowMs)
    && (nowMs > 0 ==> forall t :: t in r ==> t.dueDate.Some?)
    && (forall i, j :: 0 <= i < j < |r| ==> DueMs(r[i]) <= DueMs(r[j]))
    && (forall t, u :: t in r && u in fetched && IsUpcoming(u, nowMs) && u !in r ==> DueMs(t) <= DueMs(u))
    && (|r| < ListLimit ==> forall u :: u in fetched && IsUpcoming(u, nowMs) ==> u in r)
    && (|r| < ListLimit ==> forall u :: multiset(r)[u] == (if IsUpcoming(u, nowMs) then multiset(fetched)[u] else 0))
  }

  /**
   * The upcoming list: the first five of the open tasks due from now on, sorted by due date.
   * After the epoch a task without a due date never qualifies.
   */
  function Upcoming(fetched: seq<Task>, nowMs: int): (r: seq<Task>)
    ensures UpcomingList(fetched, nowMs, r)
  {
    var sorted := UpcomingSorted(fetched, nowMs);
    UpcomingTake(fetched, nowMs, sorted);
    Take(sorted, ListLimit)
  }

  /** The first five of the sorted eligible tasks have every property of the upcoming list. */
  lemma UpcomingTake(fetched: seq<Task>, nowMs: int, sorted: seq<Task>)
    requires SortedBy(sorted, EarlierDue)
    requires forall u :: u in multiset(sorted) <==> u in fetched && IsUpcoming(u, nowMs)
    requires forall u :: multiset(sorted)[u] == (if IsUpcoming(u, nowMs) then multiset(fetched)[u] else 0)
    ensures UpcomingList(fetched, nowMs, Take(sorted, ListLimit))
  {
    UpcomingOrder(fetched, nowMs, sorted);
    UpcomingMembers(fetched, nowMs, sorted);
  }

  /**
   * The eligible tasks of the recency-sorted copy, then sorted by due date: every eligible
   * fetched task, as often as it was fetched, earliest due first.
   */
  function UpcomingSorted(fetched: seq<Task>, nowMs: int): (r: seq<Task>)
    ensures SortedBy(r, EarlierDue)
    ensures forall u :: u in multiset(r) <==> u in fetched && IsUpcoming(u, nowMs)
    ensures forall u :: multiset(r)[u] == (if IsUpcoming(u, nowMs) then multiset(fetched)[u] else 0)
  {
    var candidates := Keep(ByRecency(fetched), t => IsUpcoming(t, nowMs));
    var sorted := ByDueDate(candidates);
    UpcomingCandidates(fetched, nowMs, candidates, sorted);
    sorted
  }

  /** The first five of the sorted candidates are in due order and due no later than any other. */
  lemma UpcomingOrder(fetched: seq<Task>, nowMs: int, sorted: seq<Task>)
    requires SortedBy(sorted, EarlierDue)
    requires forall u :: u in multiset(sorted) <==> u in fetched && IsUpcoming(u, nowMs)
    ensures var r := Take(sorted, ListLimit);
      && (forall i, j :: 0 <= i < j < |r| ==> DueMs(r[i]) <= DueMs(r[j]))
      && (forall t, u :: t in r && u in fetched && IsUpcoming(u, nowMs) && u !in r ==> DueMs(t) <= DueMs(u))
  {
    var r := Take(sorted, ListLimit);
    TakeOfSortedIsLeast(sorted, ListLimit, EarlierDue);
    forall i, j | 0 <= i < j < |r|
      ensures DueMs(r[i]) <= DueMs(r[j])
    {
      assert r[i] == sorted[i] && r[j] == sorted[j];
      assert EarlierDue(sorted[i], sorted[j]);
    }
    forall t, u | t in r && u in fetched && IsUpcoming(u, nowMs) && u !in r
      ensures DueMs(t) <= DueMs(u)
    {
      assert u in multiset(sorted) - multiset(r);
      assert EarlierDue(t, u);
    }
  }

  /** The first five of the sorted candidates are eligible fetched tasks, and all of them when fewer. */
  lemma UpcomingMembers(fetched: seq<Task>, nowMs: int, sorted: seq<Task>)
    requires forall u :: u in multiset(sorted) <==> u in fetched && IsUpcoming(u, nowMs)
    requires forall u :: multiset(sorted)[u] == (if IsUpcoming(u, nowMs) then multiset(fetched)[u] else 0)
    ensures var r := Take(sorted, ListLimit);
      && |r| <= ListLimit
      && multiset(r) <= multiset(fetched)
      && (forall t :: t in r ==> t in fetched && t.status != Completed && DueMs(t) >= nowMs)
      && (nowMs > 0 ==> forall t :: t in r ==> t.dueDate.Some?)
      && (|r| < ListLimit ==> forall u :: u in fetched && IsUpcoming(u, nowMs) ==> u in r)
      && (|r| < ListLimit ==> forall u :: multiset(r)[u] == (if IsUpcoming(u, nowMs) then multiset(fetched)[u] else 0))
  {
    var r := Take(sorted, ListLimit);
    var m := |r|;
    assert sorted == r + sorted[m..];
    assert multiset(r) <= multiset(sorted);
    forall t | t in r
      ensures t in fetched && IsUpcoming(t, nowMs)
    {
      assert t in multiset(sorted);
    }
  }

  /** The upcoming candidates are exactly the eligible fetched tasks. */
  lemma UpcomingCandidates(fetched: seq<Task>, nowMs: int, candidates: seq<Task>, sorted: seq<Task>)
    requires candidates == Keep(ByRecency(fetched), t => IsUpcoming(t, nowMs))
    requires multiset(sorted) == multiset(candidates)
    ensures forall u :: u in multiset(sorted) <==> u in fetched && IsUpcoming(u, nowMs)
    ensures forall u :: multiset(sorted)[u] == (if IsUpcoming(u, nowMs) then multiset(fetched)[u] else 0)
  {
    var byRecency := ByRecency(fetched);
    KeepMultiplicity(byRecency, t => IsUpcoming(t, nowMs));
    forall u
      ensures u in multiset(sorted) <==> u in fetched && IsUpcoming(u, nowMs)
    {
      assert u in multiset(sorted) <==> u in candidates;
      assert u in candidates <==> u in byRecency && IsUpcoming(u, nowMs);
      assert u in byRecency <==> u in multiset(fetched);
    }
  }

  /** `isOverdue` as written: a missing due date is the epoch, which is always in the past. */
  predicate IsOverdueAsWritten(t: Task, nowMs: int)
  {
    t.status != Completed && DueMs(t) < nowMs
  }

  /**
   * An open task with no due date is marked overdue, while the server's overdue counter
   * leaves it out.
   */
  lemma NoDueDateShownOverdue(t: Task, now: DashboardStats.Instant)
    requires t.dueDate.None? && t.status != Completed
    requires DashboardStats.ValidInstant(now) && now.day >= 0 && DashboardStats.Seconds(now) > 0
    ensures IsOverdueAsWritten(t, DashboardStats.Seconds(now) * 1000)
    ensures !DashboardStats.CountsOverdue(t, now)
  {
  }

  /** `isOverdue` as intended: only a task that has a due date can be late. */
  predicate IsOverdue(t: Task, nowMs: int)
  {
    t.status != Completed && t.dueDate.Some? && DueMs(t) < nowMs
  }

  /**
   * At the same clock reading, the corrected marker and the server's overdue counter agree
   * on every task; the two versions of the marker differ only on tasks without a due date.
   */
  lemma OverdueAgreesWithServer(t: Task, now: DashboardStats.Instant)
    ensures IsOverdue(t, DashboardStats.Seconds(now) * 1000) <==> DashboardStats.CountsOverdue(t, now)
    ensures t.dueDate.Some? ==>
              (IsOverdue(t, DashboardStats.Seconds(now) * 1000) <==> IsOverdueAsWritten(t, DashboardStats.Seconds(now) * 1000))
  {
  }

  const OverdueColor: string := "#ef4444"

  /** `STATUS_COLORS`. */
  function StatusColor(st: Status): (c: string)
    ensures c != OverdueColor
  {
    match st
    case Pending => "#94a3b8"
    case InProgress => "#3b82f6"
    case Completed => "#22c55e"
  }

  /** Each status has its own colour. */
  lemma StatusColorsDistinct(a: Status, b: Status)
    ensures StatusColor(a) == StatusColor(b) <==> a == b
  {
  }

  /** `getStatusColor`, on the corrected overdue marker: red exactly when overdue, else the status colour. */
  function GetStatusColor(t: Task, nowMs: int): (c: string)
    ensures c == OverdueColor <==> IsOverdue(t, nowMs)
    ensures !IsOverdue(t, nowMs) ==> c == StatusColor(t.status)
    ensures t.status == Completed ==> c == StatusColor(Completed)
  {
    if IsOverdue(t, nowMs) then OverdueColor else StatusColor(t.status)
  }

  /** `getStatusColor` as written, on the marker that reads a missing due date as the epoch. */
  function GetStatusColorAsWritten(t: Task, nowMs: int): (c: string)
    ensures c == OverdueColor <==> IsOverdueAsWritten(t, nowMs)
    ensures !IsOverdueAsWritten(t, nowMs) ==> c == StatusColor(t.status)
  {
    if IsOverdueAsWritten(t, nowMs) then OverdueColor else StatusColor(t.status)
  }

  /**
   * The colour as written and the corrected colour differ exactly on an open task without a
   * due date viewed after the epoch, which the code as written paints red.
   */
  lemma StatusColorsDisagreeOnUndated(t: Task, nowMs: int)
    ensures GetStatusColorAsWritten(t, nowMs) != GetStatusColor(t, nowMs)
            <==> t.status != Completed && t.dueDate.None? && nowMs > 0
    ensures t.status != Completed && t.dueDate.None? && nowMs > 0 ==>
              GetStatusColorAsWritten(t, nowMs) == OverdueColor
  {
  }

  /** `formatStatus`: split on underscores, capitalise each word, join with spaces. */
  function FormatStatus(s: string): (r: string)
    ensures |r| == |s|
    ensures r == Text.TitleChars(s, '_', ' ', true)
  {
    Text.TitleWordsChars(s, '_', ' ');
    Text.TitleWords(s, '_', ' ')
  }

  /** The label each stored status is shown with. */
  function StatusLabel(st: Status): string
  {
    match st
    case Pending => "Pending"
    case InProgress => "In Progress"
    case Completed => "Completed"
  }

  /** Formatting a stored status name gives its label. */
  lemma FormatStatusLabel(st: Status)
    ensures FormatStatus(StatusName(st)) == StatusLabel(st)
  {
    match st
    case Pending => OneWordStatusLabel(st);
    case Completed => OneWordStatusLabel(st);
    case InProgress => InProgressLabel(st);
  }

  lemma OneWordStatusLabel(st: Status)
    requires st != InProgress
    ensures FormatStatus(StatusName(st)) == StatusLabel(st)
  {
    SingleWordLabel(StatusName(st), StatusLabel(st));
  }

  lemma InProgressLabel(st: Status)
    requires st == InProgress
    ensures FormatStatus(StatusName(st)) == StatusLabel(st)
  {
    var first, second := "in", "progress";
    InProgressSpelling(first, second);
    TwoWordLabel(first, second, StatusName(st));
  }

  /** "in_progress" is "in" and "progress" joined by an underscore, and the label their capitalised words. */
  lemma InProgressSpelling(first: string, second: string)
    requires first == "in" && second == "progress"
    ensures StatusName(InProgress) == first + ['_'] + second
    ensures [Text.UpperAscii(first[0])] + first[1..] + [' '] + [Text.UpperAscii(second[0])] + second[1..]
            == StatusLabel(InProgress)
  {
    assert Text.UpperAscii(first[0]) == 'I' && first[1..] == "n";
    assert Text.UpperAscii(second[0]) == 'P' && second[1..] == "rogress";
  }

  lemma TwoWordLabel(first: string, second: string, name: string)
    requires '_' !in first && '_' !in second && |first| > 0 && |second| > 0
    requires name == first + ['_'] + second
    ensures FormatStatus(name)
         == [Text.UpperAscii(first[0])] + first[1..] + [' '] + [Text.UpperAscii(second[0])] + second[1..]
  {
    Text.TitleCharsWord(first, '_', ' ', true);
    Text.TitleCharsWord(second, '_', ' ', true);
    Text.TitleCharsAtSeparator(first, second, '_', ' ', true);
  }

  lemma SingleWordLabel(w: string, shown: string)
    requires '_' !in w && |w| > 0 && shown == [Text.UpperAscii(w[0])] + w[1..]
    ensures FormatStatus(w) == shown
  {
    Text.TitleCharsWord(w, '_', ' ', true);
  }

  /**
   * `Math.round((part / total) * 100) || 0`: the whole percentage nearest to part/total,
   * halves rounded up, and 0 where the quotient is not a number.
   */
  function Percent(part: nat, total: nat): (r: nat)
    ensures total == 0 ==> r == 0
    ensures total > 0 ==> 2 * total * r <= 200 * part + total < 2 * total * r + 2 * total
  {
    if total == 0 then 0 else (200 * part + total) / (2 * total)
  }

  /** A share of a whole lies between 0 and 100, and the whole is 100. */
  lemma PercentOfShare(part: nat, total: nat)
    requires part <= total
    ensures Percent(part, total) <= 100
    ensures part == total && total > 0 ==> Percent(part, total) == 100
    ensures part == 0 ==> Percent(part, total) == 0
  {
    if total > 0 {
      var r := Percent(part, total);
      var d := 2 * total;
      assert d * r < d * 101;
      ScaledLess(d, r, 101);
      if part == total {
        assert d * 99 < d * r;
        ScaledLess(d, 99, r);
      }
      if part == 0 {
        assert d * r < d * 1;
        ScaledLess(d, r, 1);
      }
    }
  }

  /** Dividing both sides of a strict inequality by the same positive factor. */
  lemma ScaledLess(k: int, a: int, b: int)
    requires k > 0 && k * a < k * b
    ensures a < b
  {
  }

  /** The two percentages the summary cards show from the server's statistics are shares. */
  lemma CardPercentages(tasks: seq<Task>, now: DashboardStats.Instant)
    ensures var st := DashboardStats.ComputeTaskStats(tasks, now);
      && Percent(st.inProgress, st.total) <= 100
      && Percent(st.completed, st.total) <= 100
      && st.inProgress <= st.total && st.completed <= st.total
      && (st.total > 0 && st.completed == st.total ==> Percent(st.completed, st.total) == 100)
      && (tasks == [] ==> Percent(st.completed, st.total) == 0 && Percent(st.inProgress, st.total) == 0)
      && (tasks != [] && (forall t :: t in tasks ==> t.status == Completed) ==>
            Percent(st.completed, st.total) == 100 && Percent(st.inProgress, st.total) == 0)
      && ((forall t :: t in tasks ==> t.status != Completed) ==> Percent(st.completed, st.total) == 0)
  {
    var st := DashboardStats.ComputeTaskStats(tasks, now);
    PercentOfShare(st.inProgress, st.total);
    PercentOfShare(st.completed, st.total);
  }
}

=== FILE: dashboard_stats.dfy ===
/**
 * The dashboard statistics endpoint: status counts, overdue and due-today counts, a per-category
 * count built as a left join, and a per-priority group-by. It reads every task in the table,
 * whoever owns it.
 */
module DashboardStats {
  import opened Wrappers
  import opened Tasks
  import opened Seqs

  const SecondsPerDay: int := 86400

  /** The server clock: a day number and the second within that day. */
  datatype Instant = Instant(day: Day, second: int)

  ghost predicate ValidInstant(now: Instant)
  {
    0 <= now.second < SecondsPerDay
  }

  /** Seconds since the epoch. */
  function Seconds(now: Instant): int
  {
    now.day * SecondsPerDay + now.second
  }

  /**
   * `due_date < now` with a DATE column and a timestamp, as MySQL reads it: the date stands
   * for its midnight, so a date is "before now" from the first second of that very day onwards.
   */
  predicate DueBefore(due: Day, now: Instant)
  {
    due * SecondsPerDay < Seconds(now)
  }

  predicate HasStatus(st: Status, t: Task) { t.status == st }

  /** `status != 'completed' AND due_date < now`; a null due date never compares. */
  predicate CountsOverdue(t: Task, now: Instant)
  {
    t.status != Completed && t.dueDate.Some? && DueBefore(t.dueDate.value, now)
  }

  /** `status != 'completed' AND DATE(due_date) = today`. */
  predicate CountsDueToday(t: Task, today: Day)
  {
    t.status != Completed && t.dueDate == Some(today)
  }

  function HasDueDate(t: Task): bool { t.dueDate.Some? }

  datatype TaskStats = TaskStats(total: nat, completed: nat, inProgress: nat, pending: nat, overdue: nat, dueToday: nat)

  datatype CategoryCount = CategoryCount(id: CategoryId, name: string, count: nat)

  datatype PriorityCount = PriorityCount(priority: Priority, count: nat)

  datatype Stats = Stats(taskStats: TaskStats, categoryStats: seq<CategoryCount>, priorityStats: seq<PriorityCount>)

  function InCategory(c: CategoryId, t: Task): bool { t.category == Some(c) }

  function HasPriority(p: Priority, t: Task): bool { t.priority == p }

  /** `COUNT(*) WHERE priority = p`. */
  function PriorityTally(tasks: seq<Task>, p: Priority): nat
  {
    Count(tasks, t => HasPriority(p, t))
  }

  /** The six counters of `taskStats`; today is the calendar day of `now`. */
  function ComputeTaskStats(tasks: seq<Task>, now: Instant): (r: TaskStats)
    ensures r.total == |tasks|
    ensures r.completed + r.inProgress + r.pending == r.total
    ensures r.overdue <= r.total - r.completed && r.dueToday <= r.total - r.completed
    ensures r.overdue <= Count(tasks, HasDueDate) && r.dueToday <= Count(tasks, HasDueDate)
    ensures ValidInstant(now) ==>
              r.overdue == Count(tasks, (t: Task) => t.status != Completed && t.dueDate.Some?
                                             && (t.dueDate.value < now.day || (t.dueDate.value == now.day && now.second > 0)))
    ensures r.dueToday == Count(tasks, (t: Task) => t.status != Completed && t.dueDate == Some(now.day))
    ensures r.completed == |Keep(tasks, (t: Task) => t.status == Completed)|
    ensures r.inProgress == |Keep(tasks, (t: Task) => t.status == InProgress)|
    ensures r.pending == |Keep(tasks, (t: Task) => t.status == Pending)|
  {
    var r := TaskStats(
      |tasks|,
      Count(tasks, t => HasStatus(Completed, t)),
      Count(tasks, t => HasStatus(InProgress, t)),
      Count(tasks, t => HasStatus(Pending, t)),
      Count(tasks, t => CountsOverdue(t, now)),
      Count(tasks, t => CountsDueToday(t, now.day)));
    StatusCountsPartition(tasks);
    CountMonotone(tasks, t => CountsOverdue(t, now), t => !HasStatus(Completed, t));
    CountMonotone(tasks, t => CountsDueToday(t, now.day), t => !HasStatus(Completed, t));
    CountSplit(tasks, t => HasStatus(Completed, t), t => !HasStatus(Completed, t), t => true);
    CountMonotone(tasks, t => CountsOverdue(t, now), HasDueDate);
    CountMonotone(tasks, t => CountsDueToday(t, now.day), HasDueDate);
    OverdueByCalendar(tasks, now);
    CountCongruent(tasks, t => CountsDueToday(t, now.day), (t: Task) => t.status != Completed && t.dueDate == Some(now.day));
    CountCongruent(tasks, t => HasStatus(Completed, t), (t: Task) => t.status == Completed);
    CountIsKeepLength(tasks, (t: Task) => t.status == Completed);
    CountCongruent(tasks, t => HasStatus(InProgress, t), (t: Task) => t.status == InProgress);
    CountIsKeepLength(tasks, (t: Task) => t.status == InProgress);
    CountCongruent(tasks, t => HasStatus(Pending, t), (t: Task) => t.status == Pending);
    CountIsKeepLength(tasks, (t: Task) => t.status == Pending);
    r
  }

  /** On a valid clock, the overdue count read at the calendar level. */
  lemma OverdueByCalendar(tasks: seq<Task>, now: Instant)
    ensures ValidInstant(now) ==>
              Count(tasks, t => CountsOverdue(t, now))
              == Count(tasks, (t: Task) => t.status != Completed && t.dueDate.Some?
                                   && (t.dueDate.value < now.day || (t.dueDate.value == now.day && now.second > 0)))
  {
    if ValidInstant(now) {
      forall t | t in tasks && t.dueDate.Some?
        ensures DueBefore(t.dueDate.value, now) <==> t.dueDate.value < now.day || (t.dueDate.value == now.day && now.second > 0)
      {
        DueBeforeMeaning(t.dueDate.value, now);
      }
      CountCongruent(tasks, t => CountsOverdue(t, now),
                     (t: Task) => t.status != Completed && t.dueDate.Some?
                          && (t.dueDate.value < now.day || (t.dueDate.value == now.day && now.second > 0)));
    }
  }

  /** The three statuses split the table: their counts add up to the number of tasks. */
  lemma {:induction false} StatusCountsPartition(tasks: seq<Task>)
    ensures Count(tasks, t => HasStatus(Completed, t)) + Count(tasks, t => HasStatus(InProgress, t))
            + Count(tasks, t => HasStatus(Pending, t)) == |tasks|
  {
    if |tasks| > 0 {
      StatusCountsPartition(tasks[1..]);
    }
  }

  /** On a valid clock, a due date is before now when it is an earlier day, or today after midnight. */
  lemma DueBeforeMeaning(due: Day, now: Instant)
    requires ValidInstant(now)
    ensures DueBefore(due, now) <==> due < now.day || (due == now.day && now.second > 0)
  {
    if due < now.day {
      assert due * SecondsPerDay + SecondsPerDay <= now.day * SecondsPerDay;
    } else if due > now.day {
      assert now.day * SecondsPerDay + SecondsPerDay <= due * SecondsPerDay;
    }
  }

  /**
   * Overdue is monotone in time: a task counted at one instant is still counted at any later
   * one, and so the counter never decreases while the table stays the same.
   */
  lemma OverdueMonotone(tasks: seq<Task>, earlier: Instant, later: Instant)
    requires Seconds(earlier) <= Seconds(later)
    ensures forall t :: CountsOverdue(t, earlier) ==> CountsOverdue(t, later)
    ensures ComputeTaskStats(tasks, earlier).overdue <= ComputeTaskStats(tasks, later).overdue
  {
    CountMonotone(tasks, t => CountsOverdue(t, earlier), t => CountsOverdue(t, later));
  }

  /**
   * Overdue and due-today are not disjoint: an open task due today is counted in both from
   * the first second after midnight, and only as due today at midnight itself.
   */
  lemma DueTodayOverlapsOverdue(t: Task, now: Instant)
    requires ValidInstant(now)
    requires t.status != Completed && t.dueDate == Some(now.day)
    ensures CountsDueToday(t, now.day)
    ensures CountsOverdue(t, now) <==> now.second > 0
  {
    DueBeforeMeaning(now.day, now);
  }

  /**
   * A completed task's due date never matters to the counters: moving it anywhere, or
   * removing it, leaves overdue and due-today unchanged.
   */
  lemma CompletedDueDateIrrelevant(tasks: seq<Task>, i: nat, due: Option<Day>, now: Instant)
    requires i < |tasks| && tasks[i].status == Completed
    ensures var moved := tasks[i := tasks[i].(dueDate := due)];
      && ComputeTaskStats(moved, now).overdue == ComputeTaskStats(tasks, now).overdue
      && ComputeTaskStats(moved, now).dueToday == ComputeTaskStats(tasks, now).dueToday
  {
    var t := tasks[i].(dueDate := due);
    CountReplace(tasks, i, t, t => CountsOverdue(t, now));
    CountReplace(tasks, i, t, t => CountsDueToday(t, now.day));
  }

  /**
   * A new row that is completed, or has no due date, moves neither the overdue nor the
   * due-today counter, while the total grows by one.
   */
  lemma UncountedTaskIgnored(tasks: seq<Task>, t: Task, now: Instant)
    requires t.status == Completed || t.dueDate.None?
    ensures var after := ComputeTaskStats(tasks + [t], now);
      && after.overdue == ComputeTaskStats(tasks, now).overdue
      && after.dueToday == ComputeTaskStats(tasks, now).dueToday
      && after.total == ComputeTaskStats(tasks, now).total + 1
  {
    assert !CountsOverdue(t, now) && !CountsDueToday(t, now.day);
    CountAppend(tasks, t, u => CountsOverdue(u, now));
    CountAppend(tasks, t, u => CountsDueToday(u, now.day));
  }

  /**
   * One more row moves exactly the counter of its own status, and the total, by one; the
   * other two status counters stay where they were.
   */
  lemma AppendedTaskCountedOnce(tasks: seq<Task>, t: Task, now: Instant)
    ensures var before := ComputeTaskStats(tasks, now);
      var after := ComputeTaskStats(tasks + [t], now);
      && after.total == before.total + 1
      && after.completed == before.completed + (if t.status == Completed then 1 else 0)
      && after.inProgress == before.inProgress + (if t.status == InProgress then 1 else 0)
      && after.pending == before.pending + (if t.status == Pending then 1 else 0)
  {
    CountAppend(tasks, t, u => HasStatus(Completed, u));
    CountAppend(tasks, t, u => HasStatus(InProgress, u));
    CountAppend(tasks, t, u => HasStatus(Pending, u));
  }

  /**
   * A pending task due yesterday, a completed one due yesterday and a pending one due today:
   * at midnight one is overdue and one due today; a second later the one due today is
   * overdue as well.
   */
  lemma ThreeTaskScenario(a: Task, b: Task, c: Task, now: Instant)
    requires ValidInstant(now)
    requires a.status == Pending && a.dueDate == Some(now.day - 1)
    requires b.status == Completed && b.dueDate == Some(now.day - 1)
    requires c.status == Pending && c.dueDate == Some(now.day)
    ensures var r := ComputeTaskStats([a, b, c], now);
      && r.total == 3 && r.completed == 1 && r.pending == 2 && r.inProgress == 0 && r.dueToday == 1
      && r.overdue == (if now.second == 0 then 1 else 2)
  {
    var r := ComputeTaskStats([a, b, c], now);
    ThreeTaskCounts(a, b, c, now);
    ThreeTaskDueCounts(a, b, c, now);
    assert r.completed == 1 && r.pending == 2 && r.inProgress == 0;
  }

  /** The status counts behind `ThreeTaskScenario`, taken one row at a time. */
  lemma ThreeTaskCounts(a: Task, b: Task, c: Task, now: Instant)
    requires ValidInstant(now)
    requires a.status == Pending && a.dueDate == Some(now.day - 1)
    requires b.status == Completed && b.dueDate == Some(now.day - 1)
    requires c.status == Pending && c.dueDate == Some(now.day)
    ensures Count([a, b, c], t => HasStatus(Completed, t)) == 1
    ensures Count([a, b, c], t => HasStatus(Pending, t)) == 2
    ensures Count([a, b, c], t => HasStatus(InProgress, t)) == 0
  {
    var s := [a, b, c];
    assert s[1..] == [b, c] && s[1..][1..] == [c] && s[1..][1..][1..] == [];
  }

  /** The due-date counts behind `ThreeTaskScenario`. */
  lemma ThreeTaskDueCounts(a: Task, b: Task, c: Task, now: Instant)
    requires ValidInstant(now)
    requires a.status == Pending && a.dueDate == Some(now.day - 1)
    requires b.status == Completed && b.dueDate == Some(now.day - 1)
    requires c.status == Pending && c.dueDate == Some(now.day)
    ensures Count([a, b, c], t => CountsDueToday(t, now.day)) == 1
    ensures Count([a, b, c], t => CountsOverdue(t, now)) == (if now.second == 0 then 1 else 2)
  {
    DueBeforeMeaning(now.day - 1, now);
    DueBeforeMeaning(now.day, now);
    var s := [a, b, c];
    assert s[1..] == [b, c] && s[1..][1..] == [c] && s[1..][1..][1..] == [];
  }

  /** One entry per category, in the categories' order, with the number of tasks referencing it. */
  function CategoryStats(tasks: seq<Task>, cats: seq<Category>): (r: seq<CategoryCount>)
    ensures |r| == |cats|
    ensures forall i :: 0 <= i < |cats| ==> r[i].id == cats[i].id && r[i].name == cats[i].name
    ensures forall i :: 0 <= i < |cats| ==> r[i].count == Count(tasks, t => InCategory(cats[i].id, t))
    ensures forall i :: 0 <= i < |cats| ==> (r[i].count == 0 <==> forall t :: t in tasks ==> t.category != Some(cats[i].id))
  {
    if |cats| == 0 then []
    else
      var c := cats[0];
      [CategoryCount(c.id, c.name, Count(tasks, t => InCategory(c.id, t)))] + CategoryStats(tasks, cats[1..])
  }

  function SumCategoryCounts(cs: seq<CategoryCount>): nat
  {
    if |cs| == 0 then 0 else cs[0].count + SumCategoryCounts(cs[1..])
  }

  function InSomeCategory(ids: set<CategoryId>, t: Task): bool
  {
    t.category.Some? && t.category.value in ids
  }

  /**
   * The left join counts every task whose category exists exactly once: the per-category
   * counts add up to the tasks referencing an existing category, and uncategorised tasks
   * (or ones pointing nowhere) are in no bucket.
   */
  lemma {:induction false} CategoryCountsSum(tasks: seq<Task>, cats: seq<Category>)
    requires DistinctBy(cats, CategoryKey)
    ensures SumCategoryCounts(CategoryStats(tasks, cats)) == Count(tasks, t => InSomeCategory(CategoryIds(cats), t))
  {
    if |cats| == 0 {
      CountMonotone(tasks, t => InSomeCategory(CategoryIds(cats), t), t => false);
    } else {
      var c := cats[0];
      var rest := cats[1..];
      assert DistinctBy(rest, CategoryKey) by {
        forall i, j | 0 <= i < j < |rest|
          ensures CategoryKey(rest[i]) != CategoryKey(rest[j])
        {
          assert rest[i] == cats[i + 1] && rest[j] == cats[j + 1];
        }
      }
      CategoryCountsSum(tasks, rest);
      forall k | 0 <= k < |rest|
        ensures rest[k].id != c.id
      {
        assert CategoryKey(cats[0]) != CategoryKey(cats[k + 1]);
      }
      assert c.id !in CategoryIds(rest);
      assert CategoryIds(cats) == {c.id} + CategoryIds(rest);
      CountSplit(tasks, t => InCategory(c.id, t), t => InSomeCategory(CategoryIds(rest), t),
                 t => InSomeCategory(CategoryIds(cats), t));
    }
  }

  function PriorityIn(ps: seq<Priority>, t: Task): bool { t.priority in ps }

  /** Some task has priority `p`. */
  predicate PriorityOccurs(tasks: seq<Task>, p: Priority)
  {
    exists t :: t in tasks && HasPriority(p, t)
  }

  /** The group-by has an entry for `p`. */
  predicate Listed(r: seq<PriorityCount>, p: Priority)
  {
    exists i :: 0 <= i < |r| && r[i].priority == p
  }

  /**
   * `r` is a `GROUP BY priority` over the values `ps`: one entry for each value some task has,
   * none for a value no task has, no entry counting zero, and together they count every task
   * whose priority is among `ps`.
   */
  predicate GroupedBy(tasks: seq<Task>, ps: seq<Priority>, r: seq<PriorityCount>)
  {
    && (forall i :: 0 <= i < |r| ==>
          && r[i].count > 0 && r[i].priority in ps
          && r[i].count == PriorityTally(tasks, r[i].priority))
    && (forall i, j :: 0 <= i < j < |r| ==> r[i].priority != r[j].priority)
    && (forall p :: p in ps ==> (PriorityOccurs(tasks, p) <==> Listed(r, p)))
    && SumPriorityCounts(r) == Count(tasks, t => PriorityIn(ps, t))
  }

  /** `GROUP BY priority` over the values `ps`, one value at a time. */
  function GroupByPriority(tasks: seq<Task>, ps: seq<Priority>): (r: seq<PriorityCount>)
    requires forall i, j :: 0 <= i < j < |ps| ==> ps[i] != ps[j]
    ensures forall i :: 0 <= i < |r| ==>
              && r[i].count > 0 && r[i].priority in ps
              && r[i].count == PriorityTally(tasks, r[i].priority)
    ensures forall i, j :: 0 <= i < j < |r| ==> r[i].priority != r[j].priority
    ensures forall p :: p in ps ==> (PriorityOccurs(tasks, p) <==> Listed(r, p))
    ensures SumPriorityCounts(r) == Count(tasks, t => PriorityIn(ps, t))
  {
    if |ps| == 0 then
      CountMonotone(tasks, t => PriorityIn(ps, t), t => false);
      []
    else
      var rest := GroupByPriority(tasks, ps[1..]);
      assert GroupedBy(tasks, ps[1..], rest);
      var n := PriorityTally(tasks, ps[0]);
      if n > 0 then
        GroupByPrepend(tasks, ps, rest);
        [PriorityCount(ps[0], n)] + rest
      else
        GroupBySkip(tasks, ps, rest);
        rest
  }

  /** When some task has `ps[0]`, its entry in front of the group-by over the rest is one over `ps`. */
  lemma GroupByPrepend(tasks: seq<Task>, ps: seq<Priority>, rest: seq<PriorityCount>)
    requires |ps| > 0
    requires forall i, j :: 0 <= i < j < |ps| ==> ps[i] != ps[j]
    requires GroupedBy(tasks, ps[1..], rest)
    requires PriorityTally(tasks, ps[0]) > 0
    ensures GroupedBy(tasks, ps, [PriorityCount(ps[0], PriorityTally(tasks, ps[0]))] + rest)
  {
    var e := PriorityCount(ps[0], PriorityTally(tasks, ps[0]));
    GroupByHead(tasks, ps);
    assert !Listed(rest, ps[0]);
    PrependEntries(tasks, ps, e, rest);
    GroupByConsListed(e, rest);
    PrependListed(tasks, ps, e, rest);
    SumPrepend(e, rest);
  }

  lemma SumPrepend(e: PriorityCount, rest: seq<PriorityCount>)
    ensures SumPriorityCounts([e] + rest) == e.count + SumPriorityCounts(rest)
  {
    assert ([e] + rest)[1..] == rest;
  }

  /** Listing the first value when it occurs keeps "listed exactly when it occurs" over all of `ps`. */
  lemma PrependListed(tasks: seq<Task>, ps: seq<Priority>, e: PriorityCount, rest: seq<PriorityCount>)
    requires |ps| > 0 && e.priority == ps[0] && PriorityOccurs(tasks, ps[0])
    requires forall p :: p in ps[1..] ==> (PriorityOccurs(tasks, p) <==> Listed(rest, p))
    requires forall p :: Listed([e] + rest, p) <==> p == e.priority || Listed(rest, p)
    ensures forall p :: p in ps ==> (PriorityOccurs(tasks, p) <==> Listed([e] + rest, p))
  {
    forall q | q in ps
      ensures PriorityOccurs(tasks, q) <==> Listed([e] + rest, q)
    {
      if q != ps[0] {
        assert q in ps[1..] by {
          assert ps == [ps[0]] + ps[1..];
        }
      }
    }
  }

  /** Every entry of the extended group-by is a positive, exact count of a value in `ps`. */
  lemma PrependEntries(tasks: seq<Task>, ps: seq<Priority>, e: PriorityCount, rest: seq<PriorityCount>)
    requires |ps| > 0 && e.priority == ps[0]
    requires e.count > 0 && e.count == PriorityTally(tasks, e.priority)
    requires forall i :: 0 <= i < |rest| ==>
               && rest[i].count > 0 && rest[i].priority in ps[1..]
               && rest[i].count == PriorityTally(tasks, rest[i].priority)
    ensures forall i :: 0 <= i < |[e] + rest| ==>
              && ([e] + rest)[i].count > 0 && ([e] + rest)[i].priority in ps
              && ([e] + rest)[i].count == PriorityTally(tasks, ([e] + rest)[i].priority)
  {
    var r := [e] + rest;
    assert ps == [ps[0]] + ps[1..];
    forall i | 0 <= i < |r|
      ensures r[i].count > 0 && r[i].priority in ps
      ensures r[i].count == PriorityTally(tasks, r[i].priority)
    {
      if i > 0 {
        assert r[i] == rest[i - 1];
      }
    }
  }

  /** When no task has `ps[0]`, the group-by over the rest is already one over `ps`. */
  lemma GroupBySkip(tasks: seq<Task>, ps: seq<Priority>, rest: seq<PriorityCount>)
    requires |ps| > 0
    requires forall i, j :: 0 <= i < j < |ps| ==> ps[i] != ps[j]
    requires GroupedBy(tasks, ps[1..], rest)
    requires PriorityTally(tasks, ps[0]) == 0
    ensures GroupedBy(tasks, ps, rest)
  {
    GroupByHead(tasks, ps);
    assert !Listed(rest, ps[0]);
  }

  /** The tasks of the first value and those of the others make up the tasks of all of them. */
  lemma GroupByHead(tasks: seq<Task>, ps: seq<Priority>)
    requires |ps| > 0
    requires forall i, j :: 0 <= i < j < |ps| ==> ps[i] != ps[j]
    ensures PriorityTally(tasks, ps[0]) + Count(tasks, t => PriorityIn(ps[1..], t))
            == Count(tasks, t => PriorityIn(ps, t))
    ensures PriorityTally(tasks, ps[0]) > 0 <==> PriorityOccurs(tasks, ps[0])
    ensures ps[0] !in ps[1..]
    ensures forall q :: q in ps <==> q == ps[0] || q in ps[1..]
  {
    var p := ps[0];
    assert ps == [p] + ps[1..];
    assert p !in ps[1..];
    CountSplit(tasks, t => HasPriority(p, t), t => PriorityIn(ps[1..], t), t => PriorityIn(ps, t));
    assert PriorityTally(tasks, p) == Count(tasks, t => HasPriority(p, t));
  }

  /** An entry for a value not yet listed keeps the listing free of duplicates and adds that value. */
  lemma GroupByConsListed(e: PriorityCount, rest: seq<PriorityCount>)
    requires !Listed(rest, e.priority)
    requires forall i, j :: 0 <= i < j < |rest| ==> rest[i].priority != rest[j].priority
    ensures forall i, j :: 0 <= i < j < |[e] + rest| ==> ([e] + rest)[i].priority != ([e] + rest)[j].priority
    ensures forall p :: Listed([e] + rest, p) <==> p == e.priority || Listed(rest, p)
  {
    var r := [e] + rest;
    forall i, j | 0 <= i < j < |r|
      ensures r[i].priority != r[j].priority
    {
      assert r[j] == rest[j - 1];
      if i > 0 {
        assert r[i] == rest[i - 1];
      }
    }
    forall p | Listed(rest, p)
      ensures Listed(r, p)
    {
      var i :| 0 <= i < |rest| && rest[i].priority == p;
      assert r[i + 1] == rest[i];
    }
    assert r[0] == e;
    forall p | Listed(r, p) && p != e.priority
      ensures Listed(rest, p)
    {
      var i :| 0 <= i < |r| && r[i].priority == p;
      assert rest[i - 1] == r[i];
    }
  }

  function SumPriorityCounts(ps: seq<PriorityCount>): nat
  {
    if |ps| == 0 then 0 else ps[0].count + SumPriorityCounts(ps[1..])
  }

  lemma EveryPriorityListed()
    ensures forall p: Priority :: p in [Low, Medium, High]
  {
    forall p: Priority
      ensures p in [Low, Medium, High]
    {
      match p
      case Low =>
      case Medium =>
      case High =>
    }
  }

  /** The group-by as the endpoint runs it, over the column's three values. */
  function PriorityStats(tasks: seq<Task>): (r: seq<PriorityCount>)
    ensures SumPriorityCounts(r) == |tasks|
    ensures forall p :: PriorityOccurs(tasks, p) <==> Listed(r, p)
    ensures forall i :: 0 <= i < |r| ==> r[i].count > 0 && r[i].count == PriorityTally(tasks, r[i].priority)
    ensures forall i, j :: 0 <= i < j < |r| ==> r[i].priority != r[j].priority
  {
    var all := [Low, Medium, High];
    EveryPriorityListed();
    CountSplit(tasks, t => PriorityIn(all, t), t => false, t => true);
    GroupByPriority(tasks, all)
  }

  /** `getStats`. */
  function GetStats(tasks: seq<Task>, cats: seq<Category>, now: Instant): (r: Stats)
    ensures r.taskStats.total == |tasks|
    ensures r.taskStats.completed + r.taskStats.inProgress + r.taskStats.pending == r.taskStats.total
    ensures |r.categoryStats| == |cats|
  {
    Stats(ComputeTaskStats(tasks, now), CategoryStats(tasks, cats), PriorityStats(tasks))
  }
}

=== FILE: schema.dfy ===
/**
 * The `tasks` table as its migration declares it: column defaults, the cascade from users
 * and the null-on-delete reference to categories, over a store of users, categories and tasks.
 */
module Schema {
  import opened Wrappers
  import opened Tasks
  import opened Seqs

  /** The database state the task core reads and writes. */
  datatype Store = Store(users: set<UserId>, categories: seq<Category>, tasks: seq<Task>, nextId: TaskId)

  /**
   * What the table's keys and constraints guarantee: unique primary keys, an auto-increment
   * counter above every id, an existing owner, and a category reference that resolves.
   */
  ghost predicate Valid(s: Store)
  {
    && DistinctBy(s.tasks, TaskKey)
    && DistinctBy(s.categories, CategoryKey)
    && (forall t :: t in s.tasks ==> t.id < s.nextId && t.owner in s.users)
    && (forall t :: t in s.tasks && t.category.Some? ==> t.category.value in CategoryIds(s.categories))
  }

  /**
   * The values of an INSERT: a defaulted column (`status`, `priority`) may be left out,
   * as may the nullable ones.
   */
  datatype NewTask = NewTask(
    owner: UserId,
    category: Option<CategoryId>,
    title: string,
    description: Option<string>,
    dueDate: Option<Day>,
    priority: Option<Priority>,
    status: Option<Status>)

  /** The row the database stores for an INSERT, with the id and timestamps it assigns. */
  function InsertRow(row: NewTask, id: TaskId, stamp: int): (t: Task)
    ensures row.status.None? ==> t.status == Pending
    ensures row.priority.None? ==> t.priority == Low
    ensures row.status.Some? ==> t.status == row.status.value
    ensures row.priority.Some? ==> t.priority == row.priority.value
    ensures t.id == id && t.owner == row.owner && t.category == row.category && t.title == row.title
    ensures t.description == row.description && t.dueDate == row.dueDate
    ensures t.createdAt == stamp && t.updatedAt == stamp
  {
    Task(id, row.owner, row.category, row.title, row.description, row.dueDate,
         match row.priority case Some(p) => p case None => Low,
         match row.status case Some(st) => st case None => Pending,
         stamp, stamp)
  }

  function NotOwnedBy(u: UserId, t: Task): bool { t.owner != u }

  /** Deleting a user: `ON DELETE CASCADE` removes exactly that user's tasks. */
  function DeleteUser(s: Store, u: UserId): (r: Store)
    requires Valid(s)
    ensures Valid(r)
    ensures r.users == s.users - {u} && r.categories == s.categories && r.nextId == s.nextId
    ensures forall t :: t in r.tasks <==> t in s.tasks && t.owner != u
    ensures IsSubsequence(r.tasks, s.tasks)
  {
    var p := t => NotOwnedBy(u, t);
    KeepIsSubsequence(s.tasks, p);
    KeepPreservesDistinct(s.tasks, p, TaskKey);
    Store(s.users - {u}, s.categories, Keep(s.tasks, p), s.nextId)
  }

  /** `ON DELETE SET NULL`: a task that referenced the deleted category keeps no category. */
  function Uncategorize(t: Task, c: CategoryId): Task
  {
    if t.category == Some(c) then t.(category := None) else t
  }

  function NotCategory(c: CategoryId, cat: Category): bool { cat.id != c }

  /** The tasks with every reference to `c` cleared, position by position. */
  function ClearCategory(tasks: seq<Task>, c: CategoryId): (r: seq<Task>)
    ensures |r| == |tasks|
    ensures forall i :: 0 <= i < |tasks| ==> r[i] == Uncategorize(tasks[i], c)
  {
    seq(|tasks|, i requires 0 <= i < |tasks| => Uncategorize(tasks[i], c))
  }

  lemma CategoryIdsWithout(cats: seq<Category>, c: CategoryId)
    ensures CategoryIds(Keep(cats, cat => NotCategory(c, cat))) == CategoryIds(cats) - {c}
  {
    var kept := Keep(cats, cat => NotCategory(c, cat));
    forall id | id in CategoryIds(cats) - {c}
      ensures id in CategoryIds(kept)
    {
      var cat :| cat in cats && cat.id == id;
      assert cat in kept;
    }
  }

  lemma ClearCategoryValid(s: Store, c: CategoryId, cats: seq<Category>)
    requires Valid(s)
    requires DistinctBy(cats, CategoryKey)
    requires CategoryIds(cats) == CategoryIds(s.categories) - {c}
    ensures Valid(Store(s.users, cats, ClearCategory(s.tasks, c), s.nextId))
  {
    var tasks := ClearCategory(s.tasks, c);
    forall i, j | 0 <= i < j < |tasks|
      ensures TaskKey(tasks[i]) != TaskKey(tasks[j])
    {
      assert TaskKey(s.tasks[i]) != TaskKey(s.tasks[j]);
    }
    forall t | t in tasks
      ensures t.id < s.nextId && t.owner in s.users
      ensures t.category.Some? ==> t.category.value in CategoryIds(cats)
    {
      var i :| 0 <= i < |tasks| && tasks[i] == t;
      assert s.tasks[i] in s.tasks;
    }
  }

  /**
   * Deleting a category: the category row goes, every task that referenced it stays with its
   * reference cleared, and nothing else about any task changes.
   */
  function DeleteCategory(s: Store, c: CategoryId): (r: Store)
    requires Valid(s)
    ensures Valid(r)
    ensures r.users == s.users && r.nextId == s.nextId
    ensures CategoryIds(r.categories) == CategoryIds(s.categories) - {c}
    ensures forall cat :: cat in r.categories <==> cat in s.categories && cat.id != c
    ensures IsSubsequence(r.categories, s.categories)
    ensures |r.tasks| == |s.tasks|
    ensures forall i :: 0 <= i < |s.tasks| ==> r.tasks[i].(category := s.tasks[i].category) == s.tasks[i]
    ensures forall i :: 0 <= i < |s.tasks| && s.tasks[i].category == Some(c) ==> r.tasks[i].category.None?
    ensures forall i :: 0 <= i < |s.tasks| && s.tasks[i].category != Some(c) ==> r.tasks[i] == s.tasks[i]
  {
    var p := cat => NotCategory(c, cat);
    KeepPreservesDistinct(s.categories, p, CategoryKey);
    KeepIsSubsequence(s.categories, p);
    CategoryIdsWithout(s.categories, c);
    ClearCategoryValid(s, c, Keep(s.categories, p));
    Store(s.users, Keep(s.categories, p), ClearCategory(s.tasks, c), s.nextId)
  }
}

=== FILE: seqs.dfy ===
/**
 * Order-preserving selection and counting over sequences: the `Array.prototype.filter`
 * of the front end and the `WHERE ... COUNT(*)` of the query builder.
 */
module Seqs {

  /** The elements of `s` that satisfy `p`, in their original order. */
  function Keep<T(!new)>(s: seq<T>, p: T -> bool): (r: seq<T>)
    ensures |r| <= |s|
    ensures forall x :: x in r <==> x in s && p(x)
  {
    if |s| == 0 then []
    else if p(s[0]) then [s[0]] + Keep(s[1..], p)
    else Keep(s[1..], p)
  }

  /** How many elements of `s` satisfy `p`, duplicates included. */
  function Count<T(!new)>(s: seq<T>, p: T -> bool): (n: nat)
    ensures n <= |s|
    ensures n == 0 <==> forall x :: x in s ==> !p(x)
    ensures n == |s| <==> forall x :: x in s ==> p(x)
  {
    if |s| == 0 then 0
    else (if p(s[0]) then 1 else 0) + Count(s[1..], p)
  }

  /** `a` is obtained from `b` by deleting elements, without reordering what is left. */
  ghost predicate IsSubsequence<T>(a: seq<T>, b: seq<T>)
    decreases |b|
  {
    || |a| == 0
    || (&& |b| > 0
        && ((a[0] == b[0] && IsSubsequence(a[1..], b[1..])) || IsSubsequence(a, b[1..])))
  }

  /** No two elements of `s` share a key. */
  ghost predicate DistinctBy<T, K>(s: seq<T>, key: T -> K)
  {
    forall i, j :: 0 <= i < j < |s| ==> key(s[i]) != key(s[j])
  }

  lemma {:induction false} KeepIsSubsequence<T(!new)>(s: seq<T>, p: T -> bool)
    ensures IsSubsequence(Keep(s, p), s)
  {
    if |s| > 0 {
      KeepIsSubsequence(s[1..], p);
      var k := Keep(s, p);
      if p(s[0]) {
        assert k[0] == s[0] && k[1..] == Keep(s[1..], p);
      } else {
        assert k == Keep(s[1..], p);
      }
    }
  }

  lemma {:induction false} KeepIdempotent<T(!new)>(s: seq<T>, p: T -> bool)
    ensures Keep(Keep(s, p), p) == Keep(s, p)
  {
    if |s| > 0 {
      KeepIdempotent(s[1..], p);
      if p(s[0]) {
        var k := Keep(s, p);
        assert k[0] == s[0] && k[1..] == Keep(s[1..], p);
      }
    }
  }

  /** Filtering by `p` and then by `q` is filtering once by their conjunction. */
  lemma {:induction false} KeepKeep<T(!new)>(s: seq<T>, p: T -> bool, q: T -> bool, pq: T -> bool)
    requires forall x :: x in s ==> (pq(x) <==> p(x) && q(x))
    ensures Keep(Keep(s, p), q) == Keep(s, pq)
  {
    if |s| > 0 {
      KeepKeep(s[1..], p, q, pq);
      if p(s[0]) {
        var k := Keep(s, p);
        assert k[0] == s[0] && k[1..] == Keep(s[1..], p);
      }
    }
  }

  lemma {:induction false} KeepAll<T(!new)>(s: seq<T>, p: T -> bool)
    requires forall x :: x in s ==> p(x)
    ensures Keep(s, p) == s
  {
    if |s| > 0 {
      KeepAll(s[1..], p);
    }
  }

  /** Selection keeps every key distinct that was distinct before. */
  lemma {:induction false} KeepPreservesDistinct<T(!new), K>(s: seq<T>, p: T -> bool, key: T -> K)
    requires DistinctBy(s, key)
    ensures DistinctBy(Keep(s, p), key)
  {
    if |s| > 0 {
      KeepPreservesDistinct(s[1..], p, key);
      if p(s[0]) {
        var rest := Keep(s[1..], p);
        forall y | y in rest
          ensures key(y) != key(s[0])
        {
          var k :| 0 <= k < |s[1..]| && s[1..][k] == y;
          assert s[k + 1] == y;
        }
        var r := Keep(s, p);
        assert r == [s[0]] + rest;
        forall i, j | 0 <= i < j < |r|
          ensures key(r[i]) != key(r[j])
        {
          if i == 0 {
            assert r[j] == rest[j - 1];
            assert r[j] in rest;
          } else {
            assert r[i] == rest[i - 1] && r[j] == rest[j - 1];
          }
        }
      }
    }
  }

  /** Counting by a predicate that is the disjoint union of two others adds their counts. */
  lemma {:induction false} CountSplit<T(!new)>(s: seq<T>, p: T -> bool, q: T -> bool, pq: T -> bool)
    requires forall x :: x in s ==> (pq(x) <==> p(x) || q(x))
    requires forall x :: x in s ==> !(p(x) && q(x))
    ensures Count(s, pq) == Count(s, p) + Count(s, q)
  {
    if |s| > 0 {
      CountSplit(s[1..], p, q, pq);
    }
  }

  lemma {:induction false} CountMonotone<T(!new)>(s: seq<T>, p: T -> bool, q: T -> bool)
    requires forall x :: x in s ==> p(x) ==> q(x)
    ensures Count(s, p) <= Count(s, q)
  {
    if |s| > 0 {
      CountMonotone(s[1..], p, q);
    }
  }

  /** Two predicates that agree on every element count alike. */
  lemma {:induction false} CountCongruent<T(!new)>(s: seq<T>, p: T -> bool, q: T -> bool)
    requires forall x :: x in s ==> (p(x) <==> q(x))
    ensures Count(s, p) == Count(s, q)
  {
    if |s| > 0 {
      CountCongruent(s[1..], p, q);
    }
  }

  /** Adding one element adds one to the count exactly when the predicate holds of it. */
  lemma {:induction false} CountAppend<T(!new)>(s: seq<T>, x: T, p: T -> bool)
    ensures Count(s + [x], p) == Count(s, p) + (if p(x) then 1 else 0)
  {
    if |s| > 0 {
      assert (s + [x])[1..] == s[1..] + [x];
      CountAppend(s[1..], x, p);
    } else {
      assert s + [x] == [x];
    }
  }

  /** Replacing one element by another the predicate judges alike leaves the count alone. */
  lemma {:induction false} CountReplace<T(!new)>(s: seq<T>, i: nat, x: T, p: T -> bool)
    requires i < |s| && p(x) == p(s[i])
    ensures Count(s[i := x], p) == Count(s, p)
  {
    if i > 0 {
      CountReplace(s[1..], i - 1, x, p);
      assert s[i := x][1..] == s[1..][i - 1 := x];
    } else {
      assert s[i := x][1..] == s[1..];
    }
  }

  /** Counting the matches is measuring the selection: `COUNT(*) ... WHERE` equals the length of the `WHERE`. */
  lemma {:induction false} CountIsKeepLength<T(!new)>(s: seq<T>, p: T -> bool)
    ensures Count(s, p) == |Keep(s, p)|
  {
    if |s| > 0 {
      CountIsKeepLength(s[1..], p);
    }
  }

  /** Selection keeps every matching element as often as it occurs, and no other. */
  lemma {:induction false} KeepMultiplicity<T(!new)>(s: seq<T>, p: T -> bool)
    ensures forall x :: multiset(Keep(s, p))[x] == (if p(x) then multiset(s)[x] else 0)
  {
    if |s| > 0 {
      KeepMultiplicity(s[1..], p);
      assert s == [s[0]] + s[1..];
    }
  }

  /** A selection takes each element at most as often as it occurs. */
  lemma {:induction false} KeepSubMultiset<T(!new)>(s: seq<T>, p: T -> bool)
    ensures multiset(Keep(s, p)) <= multiset(s)
  {
    if |s| > 0 {
      KeepSubMultiset(s[1..], p);
      assert s == [s[0]] + s[1..];
    }
  }
}

=== FILE: sorting.dfy ===
/**
 * Sorting by a comparison, as `Array.prototype.sort` with a comparator and `ORDER BY` do,
 * and taking a prefix, as `slice(0, n)` and `LIMIT n` do.
 */
module Sorting {

  /** `le` orders every pair of values and is transitive: what a consistent comparator induces. */
  ghost predicate TotalPreorder<T(!new)>(le: (T, T) -> bool)
  {
    && (forall a, b :: le(a, b) || le(b, a))
    && (forall a, b, c :: le(a, b) && le(b, c) ==> le(a, c))
  }

  /** Every element of `s` is `le` every element after it. */
  ghost predicate SortedBy<T>(s: seq<T>, le: (T, T) -> bool)
  {
    forall i, j :: 0 <= i < j < |s| ==> le(s[i], s[j])
  }

  /** Places `x` into the sorted `s`, after every element it is not `le`. */
  function Insert<T(!new)>(x: T, s: seq<T>, le: (T, T) -> bool): (r: seq<T>)
    requires TotalPreorder(le)
    requires SortedBy(s, le)
    ensures SortedBy(r, le)
    ensures multiset(r) == multiset(s) + multiset{x}
  {
    if |s| == 0 then [x]
    else if le(x, s[0]) then
      InsertFront(x, s, le);
      [x] + s
    else
      var rest := Insert(x, s[1..], le);
      InsertBehind(x, s, le, rest);
      [s[0]] + rest
  }

  /** `x` no later than the head of a sorted `s` may go in front of it. */
  lemma InsertFront<T(!new)>(x: T, s: seq<T>, le: (T, T) -> bool)
    requires TotalPreorder(le)
    requires SortedBy(s, le) && |s| > 0 && le(x, s[0])
    ensures SortedBy([x] + s, le)
  {
    var r := [x] + s;
    forall i, j | 0 <= i < j < |r|
      ensures le(r[i], r[j])
    {
      if i == 0 {
        assert r[j] == s[j - 1];
        if j > 1 {
          assert le(s[0], s[j - 1]);
        }
      } else {
        assert r[i] == s[i - 1] && r[j] == s[j - 1];
      }
    }
  }

  /** When `x` comes after the head, the head in front of `x` inserted into the tail is sorted. */
  lemma InsertBehind<T(!new)>(x: T, s: seq<T>, le: (T, T) -> bool, rest: seq<T>)
    requires TotalPreorder(le)
    requires SortedBy(s, le) && |s| > 0 && !le(x, s[0])
    requires SortedBy(rest, le) && multiset(rest) == multiset(s[1..]) + multiset{x}
    ensures SortedBy([s[0]] + rest, le)
    ensures multiset([s[0]] + rest) == multiset(s) + multiset{x}
  {
    assert s == [s[0]] + s[1..];
    assert forall y :: y in multiset(rest) ==> le(s[0], y) by {
      forall y | y in multiset(rest)
        ensures le(s[0], y)
      {
        if y != x {
          assert y in multiset(s[1..]);
          var k :| 0 <= k < |s[1..]| && s[1..][k] == y;
          assert s[k + 1] == y;
        }
      }
    }
    assert forall j :: 0 <= j < |rest| ==> rest[j] in multiset(rest);
  }

  /** A sorted permutation of `s`. */
  function SortBy<T(!new)>(s: seq<T>, le: (T, T) -> bool): (r: seq<T>)
    requires TotalPreorder(le)
    ensures SortedBy(r, le)
    ensures multiset(r) == multiset(s)
    ensures |r| == |s|
  {
    if |s| == 0 then []
    else
      assert s == [s[0]] + s[1..];
      Insert(s[0], SortBy(s[1..], le), le)
  }

  /** The first `n` elements of `s`, or all of them when there are fewer. */
  function Take<T>(s: seq<T>, n: nat): (r: seq<T>)
    ensures |r| == (if |s| < n then |s| else n)
    ensures r == s[..|r|]
  {
    if |s| < n then s else s[..n]
  }

  /**
   * Taking a prefix of a sorted sequence selects its least elements: nothing left out
   * comes before anything taken.
   */
  lemma {:induction false} TakeOfSortedIsLeast<T(!new)>(s: seq<T>, n: nat, le: (T, T) -> bool)
    requires SortedBy(s, le)
    ensures multiset(Take(s, n)) <= multiset(s)
    ensures forall x, y :: x in Take(s, n) && y in multiset(s) - multiset(Take(s, n)) ==> le(x, y)
  {
    var t := Take(s, n);
    var m := |t|;
    assert s == t + s[m..];
    assert multiset(s) - multiset(t) == multiset(s[m..]);
    forall x, y | x in t && y in multiset(s) - multiset(t)
      ensures le(x, y)
    {
      var i :| 0 <= i < m && t[i] == x;
      assert y in s[m..];
      var j :| 0 <= j < |s[m..]| && s[m..][j] == y;
      assert s[i] == x && s[m + j] == y;
    }
  }
}

=== FILE: task_controller.dfy ===
/**
 * The task controller: owner-scoped listing, validated creation with server-forced fields,
 * and update and deletion behind an ownership guard. Each handler answers with the new
 * store or with the error the request ends in; an error never writes anything.
 */
module TaskController {
  import opened Wrappers
  import opened Tasks
  import opened Schema
  import opened Seqs
  import opened Sorting
  import Text

  /** A value as it arrives in the request body. `Other` stands for booleans, arrays and objects. */
  datatype Value = Null | Str(text: string) | Num(number: int) | Other

  /**
   * The keys a task request may carry; `None` means the key is absent. `userId` is there to
   * show that a submitted owner is ignored.
   */
  datatype Request = Request(
    title: Option<Value>,
    description: Option<Value>,
    dueDate: Option<Value>,
    priority: Option<Value>,
    status: Option<Value>,
    categoryId: Option<Value>,
    userId: Option<Value>)

  datatype Field = TitleField | DescriptionField | DueDateField | PriorityField | StatusField | CategoryField

  datatype Error =
    | ValidationFailed(fields: set<Field>)  // the request is sent back with one message per field
    | Forbidden                             // abort(403)
    | NotFound                              // route-model binding finds no task with that id
    | ConstraintViolation                   // the INSERT breaks the user_id foreign key

  /** The `date` rule's reading of a text; its parsing is a parameter of the model. */
  type DateParser = string -> Option<Day>

  const MaxTitleLength: nat := 255

  /** The framework turns an empty string into null before validation. */
  function Normalize(v: Value): Value
  {
    if v == Str("") then Null else v
  }

  /** The characters PHP's `trim` removes. */
  predicate IsTrimmed(c: char)
  {
    c == ' ' || c == '\t' || c == '\n' || c == '\r' || c == '\0' || c == '\U{B}'
  }

  /** A string `required` treats as missing. */
  predicate IsBlank(s: string)
  {
    forall i :: 0 <= i < |s| ==> IsTrimmed(s[i])
  }

  /** `required|string|max:255` on a present value. */
  predicate TitleRule(v: Value)
  {
    v.Str? && !IsBlank(v.text) && |v.text| <= MaxTitleLength
  }

  /** `nullable|string`. */
  predicate NullableStringRule(v: Value)
  {
    v.Null? || v.Str?
  }

  /** `nullable|date`. */
  predicate NullableDateRule(v: Value, parse: DateParser)
  {
    v.Null? || (v.Str? && parse(v.text).Some?)
  }

  /** `required` with `Rule::in(['low', 'medium', 'high'])`. */
  predicate PriorityRule(v: Value)
  {
    v.Str? && ParsePriority(v.text).Some?
  }

  /** `required` with `Rule::in(['pending', 'in_progress', 'completed'])`. */
  predicate StatusRule(v: Value)
  {
    v.Str? && ParseStatus(v.text).Some?
  }

  /** The category id a value names: a number, or decimal text as the form's select sends it. */
  function CategoryRef(v: Value): Option<CategoryId>
  {
    match v
    case Num(n) => if n >= 0 then Some(n) else None
    case Str(t) => Text.ParseDecimal(t)
    case _ => None
  }

  /** `nullable|exists:categories,id`: any category will do, whoever owns it. */
  predicate NullableCategoryRule(v: Value, cats: seq<Category>)
  {
    v.Null? || (CategoryRef(v).Some? && CategoryRef(v).value in CategoryIds(cats))
  }

  /** A key the validator requires: absent fails, present must pass `rule`. */
  predicate RequiredPasses(key: Option<Value>, rule: Value -> bool)
  {
    key.Some? && rule(Normalize(key.value))
  }

  /** A key the validator checks only when it is present. */
  predicate OptionalPasses(key: Option<Value>, rule: Value -> bool)
  {
    key.None? || rule(Normalize(key.value))
  }

  function FailsAs(ok: bool, f: Field): set<Field>
  {
    if ok then {} else {f}
  }

  /** The fields `store` rejects; a submitted `status` or owner is not validated, only dropped. */
  function StoreErrors(req: Request, cats: seq<Category>, parse: DateParser): set<Field>
  {
    FailsAs(RequiredPasses(req.title, TitleRule), TitleField)
    + FailsAs(OptionalPasses(req.description, NullableStringRule), DescriptionField)
    + FailsAs(OptionalPasses(req.dueDate, v => NullableDateRule(v, parse)), DueDateField)
    + FailsAs(RequiredPasses(req.priority, PriorityRule), PriorityField)
    + FailsAs(OptionalPasses(req.categoryId, v => NullableCategoryRule(v, cats)), CategoryField)
  }

  /** The fields `update` rejects: every rule applies only to the keys present. */
  function UpdateErrors(req: Request, cats: seq<Category>, parse: DateParser): set<Field>
  {
    FailsAs(OptionalPasses(req.title, TitleRule), TitleField)
    + FailsAs(OptionalPasses(req.description, NullableStringRule), DescriptionField)
    + FailsAs(OptionalPasses(req.dueDate, v => NullableDateRule(v, parse)), DueDateField)
    + FailsAs(OptionalPasses(req.priority, PriorityRule), PriorityField)
    + FailsAs(OptionalPasses(req.status, StatusRule), StatusField)
    + FailsAs(OptionalPasses(req.categoryId, v => NullableCategoryRule(v, cats)), CategoryField)
  }

  /** The stored text of a validated nullable string key. */
  function TextOf(key: Option<Value>): Option<string>
  {
    if key.Some? && Normalize(key.value).Str? then Some(key.value.text) else None
  }

  /** The stored date of a validated nullable date key. */
  function DateOf(key: Option<Value>, parse: DateParser): Option<Day>
  {
    if key.Some? && Normalize(key.value).Str? then parse(key.value.text) else None
  }

  /** The stored reference of a validated nullable category key. */
  function CategoryOf(key: Option<Value>): Option<CategoryId>
  {
    if key.Some? then CategoryRef(Normalize(key.value)) else None
  }

  /** Where the task with the given id sits in the table, if anywhere. */
  function FindTask(tasks: seq<Task>, id: TaskId): (r: Option<nat>)
    ensures r.Some? ==> r.value < |tasks| && tasks[r.value].id == id
    ensures r.None? <==> forall t :: t in tasks ==> t.id != id
  {
    if |tasks| == 0 then None
    else if tasks[0].id == id then Some(0)
    else match FindTask(tasks[1..], id)
      case None => None
      case Some(k) => Some(k + 1)
  }

  lemma IdPinsIndex(tasks: seq<Task>, i: nat, j: nat)
    requires DistinctBy(tasks, TaskKey)
    requires i < |tasks| && j < |tasks|
    ensures tasks[i].id == tasks[j].id ==> i == j
  {
    if i < j {
      assert TaskKey(tasks[i]) != TaskKey(tasks[j]);
    } else if j < i {
      assert TaskKey(tasks[j]) != TaskKey(tasks[i]);
    }
  }

  /** Every task that survives a write keeps its owner and creation time. */
  ghost predicate KeepsIdentities(before: Store, after: Store)
  {
    forall t, t' :: t in before.tasks && t' in after.tasks && t.id == t'.id ==>
      t'.owner == t.owner && t'.createdAt == t.createdAt
  }

  /** The task with id `id` exists and `user` owns it. */
  ghost predicate OwnsTask(s: Store, user: Option<UserId>, id: TaskId)
  {
    exists t :: t in s.tasks && t.id == id && user == Some(t.owner)
  }

  // ---------------------------------------------------------------- index

  /** `orderBy('due_date')`; where tasks without a due date go is left to the database. */
  function DueDateOrder(a: Task, b: Task): bool
  {
    a.dueDate.None? || (b.dueDate.Some? && a.dueDate.value <= b.dueDate.value)
  }

  lemma DueDateOrderIsTotal()
    ensures TotalPreorder(DueDateOrder)
  {
  }

  function OwnedBy(user: Option<UserId>, t: Task): bool { user == Some(t.owner) }

  /** The current user's tasks, ordered by due date; a guest matches no row. */
  function Index(s: Store, user: Option<UserId>): (r: seq<Task>)
    ensures forall t :: t in r <==> t in s.tasks && user == Some(t.owner)
    ensures multiset(r) == multiset(Keep(s.tasks, t => OwnedBy(user, t)))
    ensures forall i, j :: 0 <= i < j < |r| && r[i].dueDate.Some? && r[j].dueDate.Some? ==>
              r[i].dueDate.value <= r[j].dueDate.value
  {
    DueDateOrderIsTotal();
    var kept := Keep(s.tasks, t => OwnedBy(user, t));
    var r := SortBy(kept, DueDateOrder);
    assert forall t :: t in r <==> t in multiset(r);
    assert forall t :: t in kept <==> t in multiset(kept);
    r
  }

  // ---------------------------------------------------------------- store

  /** The INSERT that `store` issues for a validated request. */
  function NewTaskFor(owner: UserId, req: Request, parse: DateParser): NewTask
    requires RequiredPasses(req.title, TitleRule) && RequiredPasses(req.priority, PriorityRule)
  {
    NewTask(owner, CategoryOf(req.categoryId), req.title.value.text, TextOf(req.description),
            DateOf(req.dueDate, parse), ParsePriority(req.priority.value.text), Some(Pending))
  }

  /** A row with a fresh id, a known owner and an existing category keeps the store valid. */
  lemma AppendRowValid(s: Store, t: Task)
    requires Valid(s)
    requires t.id == s.nextId && t.owner in s.users
    requires t.category.Some? ==> t.category.value in CategoryIds(s.categories)
    ensures Valid(Store(s.users, s.categories, s.tasks + [t], s.nextId + 1))
    ensures KeepsIdentities(s, Store(s.users, s.categories, s.tasks + [t], s.nextId + 1))
  {
    var tasks := s.tasks + [t];
    assert forall u :: u in tasks ==> u == t || u in s.tasks;
    forall i, j | 0 <= i < j < |tasks|
      ensures TaskKey(tasks[i]) != TaskKey(tasks[j])
    {
      if j < |s.tasks| {
        assert TaskKey(s.tasks[i]) != TaskKey(s.tasks[j]);
      } else {
        assert s.tasks[i] in s.tasks;
      }
    }
    forall u, u' | u in s.tasks && u' in tasks && u.id == u'.id
      ensures u'.owner == u.owner && u'.createdAt == u.createdAt
    {
      var k :| 0 <= k < |s.tasks| && s.tasks[k] == u;
      var k' :| 0 <= k' < |s.tasks| && s.tasks[k'] == u';
      IdPinsIndex(s.tasks, k, k');
    }
  }

  /**
   * `store`: validate, then insert with the owner forced to the current user and the status
   * forced to pending, whatever the request says about either.
   */
  function Create(s: Store, user: Option<UserId>, req: Request, parse: DateParser, stamp: int)
    : (r: Result<Store, Error>)
    requires Valid(s)
    ensures StoreErrors(req, s.categories, parse) != {} ==>
              r == Err(ValidationFailed(StoreErrors(req, s.categories, parse)))
    ensures r.Ok? <==> StoreErrors(req, s.categories, parse) == {} && user.Some? && user.value in s.users
    ensures r.Err? ==> r.error.ValidationFailed? || r.error.ConstraintViolation?
    ensures r.Ok? ==> Valid(r.value) && KeepsIdentities(s, r.value)
    ensures r.Ok? ==> r.value.users == s.users && r.value.categories == s.categories
    ensures r.Ok? ==> |r.value.tasks| == |s.tasks| + 1 && r.value.tasks[..|s.tasks|] == s.tasks
    ensures r.Ok? ==> var t := r.value.tasks[|s.tasks|];
              && t.id == s.nextId && Some(t.owner) == user && t.status == Pending
              && req.title == Some(Str(t.title)) && req.priority == Some(Str(PriorityName(t.priority)))
              && t.description == TextOf(req.description) && t.dueDate == DateOf(req.dueDate, parse)
              && t.category == CategoryOf(req.categoryId)
              && t.createdAt == stamp && t.updatedAt == stamp
  {
    var errs := StoreErrors(req, s.categories, parse);
    if errs != {} then Err(ValidationFailed(errs))
    else if user.None? || user.value !in s.users then Err(ConstraintViolation)
    else
      var t := InsertRow(NewTaskFor(user.value, req, parse), s.nextId, stamp);
      var tasks := s.tasks + [t];
      assert tasks[..|s.tasks|] == s.tasks;
      AppendRowValid(s, t);
      Ok(Store(s.users, s.categories, tasks, s.nextId + 1))
  }

  /**
   * What `store` sends back: a missing, blank or over-long title, a missing or unknown
   * priority, and a category reference that names no category, given as a number or as the
   * decimal text the form's select sends, or text that is not a number at all, each fail
   * validation on their own field.
   */
  lemma StoreRejects(s: Store, user: Option<UserId>, req: Request, parse: DateParser, stamp: int)
    requires Valid(s)
    ensures (req.title.None? || !req.title.value.Str? || IsBlank(req.title.value.text)
             || |req.title.value.text| > MaxTitleLength) ==>
              exists fs :: Create(s, user, req, parse, stamp) == Err(ValidationFailed(fs)) && TitleField in fs
    ensures (req.priority.None? || !req.priority.value.Str?
             || req.priority.value.text !in {"low", "medium", "high"}) ==>
              exists fs :: Create(s, user, req, parse, stamp) == Err(ValidationFailed(fs)) && PriorityField in fs
    ensures (exists n: nat :: req.categoryId == Some(Num(n)) && n !in CategoryIds(s.categories)) ==>
              exists fs :: Create(s, user, req, parse, stamp) == Err(ValidationFailed(fs)) && CategoryField in fs
    ensures (exists n: nat :: req.categoryId == Some(Str(Text.ShowDecimal(n))) && n !in CategoryIds(s.categories)) ==>
              exists fs :: Create(s, user, req, parse, stamp) == Err(ValidationFailed(fs)) && CategoryField in fs
    ensures (exists t: string, i :: req.categoryId == Some(Str(t)) && 0 <= i < |t| && !Text.IsDigit(t[i])) ==>
              exists fs :: Create(s, user, req, parse, stamp) == Err(ValidationFailed(fs)) && CategoryField in fs
  {
    var errs := StoreErrors(req, s.categories, parse);
    if n: nat :| req.categoryId == Some(Str(Text.ShowDecimal(n))) && n !in CategoryIds(s.categories) {
      Text.ParseShowDecimal(n);
    }
    if req.title.Some? && req.title.value == Str("") {
      assert IsBlank(req.title.value.text);
    }
  }

  /** `exists:categories,id` does not look at who owns the category: anyone's will do. */
  lemma StoreAcceptsAnyOwnersCategory(s: Store, user: UserId, req: Request, c: Category, parse: DateParser, stamp: int)
    requires Valid(s) && user in s.users && c in s.categories
    requires StoreErrors(req.(categoryId := None), s.categories, parse) == {}
    ensures var r := Create(s, Some(user), req.(categoryId := Some(Num(c.id))), parse, stamp);
      r.Ok? && r.value.tasks[|s.tasks|].category == Some(c.id) && r.value.tasks[|s.tasks|].owner == user
  {
    var req' := req.(categoryId := Some(Num(c.id)));
    assert StoreErrors(req', s.categories, parse) == {};
  }

  // ---------------------------------------------------------------- update

  /** The task after `$task->update($validated)`: each key present replaces its column. */
  function Patch(t: Task, req: Request, parse: DateParser): Task
    requires OptionalPasses(req.title, TitleRule)
    requires OptionalPasses(req.priority, PriorityRule)
    requires OptionalPasses(req.status, StatusRule)
  {
    t.(title := if req.title.Some? then req.title.value.text else t.title,
       description := if req.description.Some? then TextOf(req.description) else t.description,
       dueDate := if req.dueDate.Some? then DateOf(req.dueDate, parse) else t.dueDate,
       priority := if req.priority.Some? then ParsePriority(req.priority.value.text).value else t.priority,
       status := if req.status.Some? then ParseStatus(req.status.value.text).value else t.status,
       category := if req.categoryId.Some? then CategoryOf(req.categoryId) else t.category)
  }

  /**
   * `after` is `before` with exactly the request's keys applied: an absent key keeps its
   * column, a present one takes the submitted value; id, owner and creation time never move,
   * and the update time moves only when some column actually changed.
   */
  ghost predicate KeysApplied(before: Task, after: Task, req: Request, parse: DateParser, stamp: int)
  {
    && after.id == before.id && after.owner == before.owner && after.createdAt == before.createdAt
    && (req.title.None? ==> after.title == before.title)
    && (req.title.Some? ==> req.title == Some(Str(after.title)))
    && (req.description.None? ==> after.description == before.description)
    && (req.description.Some? ==> after.description == TextOf(req.description))
    && (req.dueDate.None? ==> after.dueDate == before.dueDate)
    && (req.dueDate.Some? ==> after.dueDate == DateOf(req.dueDate, parse))
    && (req.priority.None? ==> after.priority == before.priority)
    && (req.priority.Some? ==> req.priority == Some(Str(PriorityName(after.priority))))
    && (req.status.None? ==> after.status == before.status)
    && (req.status.Some? ==> req.status == Some(Str(StatusName(after.status))))
    && (req.categoryId.None? ==> after.category == before.category)
    && (req.categoryId.Some? ==> after.category == CategoryOf(req.categoryId))
    && (after.(updatedAt := before.updatedAt) == before ==> after.updatedAt == before.updatedAt)
    && (after.(updatedAt := before.updatedAt) != before ==> after.updatedAt == stamp)
  }

  lemma ReplaceAtValid(s: Store, i: nat, t': Task)
    requires Valid(s) && i < |s.tasks|
    requires t'.id == s.tasks[i].id && t'.owner == s.tasks[i].owner && t'.createdAt == s.tasks[i].createdAt
    requires t'.category.Some? ==> t'.category.value in CategoryIds(s.categories)
    ensures Valid(s.(tasks := s.tasks[i := t']))
    ensures KeepsIdentities(s, s.(tasks := s.tasks[i := t']))
  {
    var tasks := s.tasks[i := t'];
    assert s.tasks[i] in s.tasks;
    forall a, b | 0 <= a < b < |tasks|
      ensures TaskKey(tasks[a]) != TaskKey(tasks[b])
    {
      assert TaskKey(s.tasks[a]) != TaskKey(s.tasks[b]);
    }
    assert forall u :: u in tasks ==> u == t' || u in s.tasks;
    forall u, u' | u in s.tasks && u' in tasks && u.id == u'.id
      ensures u'.owner == u.owner && u'.createdAt == u.createdAt
    {
      var k :| 0 <= k < |s.tasks| && s.tasks[k] == u;
      var k' :| 0 <= k' < |tasks| && tasks[k'] == u';
      IdPinsIndex(s.tasks, k, k');
    }
  }

  /**
   * `update`: the ownership guard runs before validation; a valid request changes only the
   * keys it carries, and saves (touching `updated_at`) only when something is different.
   */
  function Update(s: Store, user: Option<UserId>, id: TaskId, req: Request, parse: DateParser, stamp: int)
    : (r: Result<Store, Error>)
    requires Valid(s)
    ensures (forall t :: t in s.tasks ==> t.id != id) ==> r == Err(NotFound)
    ensures (exists t :: t in s.tasks && t.id == id) && !OwnsTask(s, user, id) ==> r == Err(Forbidden)
    ensures OwnsTask(s, user, id) && UpdateErrors(req, s.categories, parse) != {} ==>
              r == Err(ValidationFailed(UpdateErrors(req, s.categories, parse)))
    ensures r.Ok? <==> OwnsTask(s, user, id) && UpdateErrors(req, s.categories, parse) == {}
    ensures r.Ok? ==> Valid(r.value) && KeepsIdentities(s, r.value)
    ensures r.Ok? ==> r.value.users == s.users && r.value.categories == s.categories && r.value.nextId == s.nextId
    ensures r.Ok? ==> |r.value.tasks| == |s.tasks|
    ensures r.Ok? ==> forall i :: 0 <= i < |s.tasks| && s.tasks[i].id != id ==> r.value.tasks[i] == s.tasks[i]
    ensures r.Ok? ==> forall i :: 0 <= i < |s.tasks| && s.tasks[i].id == id ==>
              KeysApplied(s.tasks[i], r.value.tasks[i], req, parse, stamp)
  {
    match FindTask(s.tasks, id)
    case None => Err(NotFound)
    case Some(i) =>
      var t := s.tasks[i];
      assert t in s.tasks;
      assert forall k :: 0 <= k < |s.tasks| && s.tasks[k].id == id ==> k == i by {
        forall k | 0 <= k < |s.tasks| && s.tasks[k].id == id
          ensures k == i
        {
          IdPinsIndex(s.tasks, k, i);
        }
      }
      assert OwnsTask(s, user, id) <==> user == Some(t.owner);
      if user != Some(t.owner) then Err(Forbidden)
      else
        var errs := UpdateErrors(req, s.categories, parse);
        if errs != {} then Err(ValidationFailed(errs))
        else
          SaveAtApplied(s, i, req, parse, stamp);
          Ok(SaveAt(s, i, req, parse, stamp))
  }

  /** The store after a validated update of the row at `i`, saved only when something differs. */
  function SaveAt(s: Store, i: nat, req: Request, parse: DateParser, stamp: int): Store
    requires i < |s.tasks|
    requires OptionalPasses(req.title, TitleRule)
    requires OptionalPasses(req.priority, PriorityRule)
    requires OptionalPasses(req.status, StatusRule)
  {
    var t' := Patch(s.tasks[i], req, parse);
    if t' == s.tasks[i] then s else s.(tasks := s.tasks[i := t'.(updatedAt := stamp)])
  }

  lemma SaveAtApplied(s: Store, i: nat, req: Request, parse: DateParser, stamp: int)
    requires Valid(s) && i < |s.tasks|
    requires UpdateErrors(req, s.categories, parse) == {}
    ensures OptionalPasses(req.title, TitleRule) && OptionalPasses(req.priority, PriorityRule)
    ensures OptionalPasses(req.status, StatusRule)
    ensures var r := SaveAt(s, i, req, parse, stamp);
      && Valid(r) && KeepsIdentities(s, r)
      && r.users == s.users && r.categories == s.categories && r.nextId == s.nextId
      && |r.tasks| == |s.tasks|
      && (forall k :: 0 <= k < |s.tasks| && s.tasks[k].id != s.tasks[i].id ==> r.tasks[k] == s.tasks[k])
      && (forall k :: 0 <= k < |s.tasks| && s.tasks[k].id == s.tasks[i].id ==>
            KeysApplied(s.tasks[k], r.tasks[k], req, parse, stamp))
  {
    var t := s.tasks[i];
    assert forall k :: 0 <= k < |s.tasks| && s.tasks[k].id == t.id ==> k == i by {
      forall k | 0 <= k < |s.tasks| && s.tasks[k].id == t.id
        ensures k == i
      {
        IdPinsIndex(s.tasks, k, i);
      }
    }
    assert t in s.tasks;
    var t' := Patch(t, req, parse);
    PatchApplied(t, req, parse, stamp);
    if t' != t {
      ReplaceAtValid(s, i, t'.(updatedAt := stamp));
    }
  }

  /** The saved row is the patched one, with the update time set only when a column changed. */
  lemma PatchApplied(t: Task, req: Request, parse: DateParser, stamp: int)
    requires OptionalPasses(req.title, TitleRule)
    requires OptionalPasses(req.priority, PriorityRule)
    requires OptionalPasses(req.status, StatusRule)
    ensures var t' := Patch(t, req, parse);
      KeysApplied(t, if t' == t then t else t'.(updatedAt := stamp), req, parse, stamp)
  {
  }

  // ---------------------------------------------------------------- destroy

  /** The table without the row at `i`. */
  function RemoveAt(tasks: seq<Task>, i: nat): (r: seq<Task>)
    requires i < |tasks|
    ensures |r| == |tasks| - 1
    ensures forall k :: 0 <= k < |r| ==> r[k] == tasks[if k < i then k else k + 1]
  {
    tasks[..i] + tasks[i + 1..]
  }

  lemma RemoveAtUnique(tasks: seq<Task>, i: nat)
    requires i < |tasks| && DistinctBy(tasks, TaskKey)
    ensures DistinctBy(RemoveAt(tasks, i), TaskKey)
    ensures forall u :: u in RemoveAt(tasks, i) <==> u in tasks && u.id != tasks[i].id
  {
    RemoveAtDistinct(tasks, i);
    RemoveAtMembers(tasks, i);
  }

  lemma RemoveAtDistinct(tasks: seq<Task>, i: nat)
    requires i < |tasks| && DistinctBy(tasks, TaskKey)
    ensures DistinctBy(RemoveAt(tasks, i), TaskKey)
  {
    var r := RemoveAt(tasks, i);
    forall a, b | 0 <= a < b < |r|
      ensures TaskKey(r[a]) != TaskKey(r[b])
    {
      var a' := if a < i then a else a + 1;
      var b' := if b < i then b else b + 1;
      assert TaskKey(tasks[a']) != TaskKey(tasks[b']);
    }
  }

  lemma RemoveAtMembers(tasks: seq<Task>, i: nat)
    requires i < |tasks| && DistinctBy(tasks, TaskKey)
    ensures forall u :: u in RemoveAt(tasks, i) <==> u in tasks && u.id != tasks[i].id
  {
    RemoveAtDrops(tasks, i);
    RemoveAtKeeps(tasks, i);
  }

  /** Only the row at `i` carries its id, so nothing left over has it. */
  lemma RemoveAtDrops(tasks: seq<Task>, i: nat)
    requires i < |tasks| && DistinctBy(tasks, TaskKey)
    ensures forall u :: u in RemoveAt(tasks, i) ==> u in tasks && u.id != tasks[i].id
  {
    var r := RemoveAt(tasks, i);
    forall u | u in r
      ensures u in tasks && u.id != tasks[i].id
    {
      var k :| 0 <= k < |r| && r[k] == u;
      var k' := if k < i then k else k + 1;
      assert tasks[k'] == u;
      IdPinsIndex(tasks, k', i);
    }
  }

  /** Every row with another id is still there. */
  lemma RemoveAtKeeps(tasks: seq<Task>, i: nat)
    requires i < |tasks|
    ensures forall u :: u in tasks && u.id != tasks[i].id ==> u in RemoveAt(tasks, i)
  {
    var r := RemoveAt(tasks, i);
    forall u | u in tasks && u.id != tasks[i].id
      ensures u in r
    {
      var k :| 0 <= k < |tasks| && tasks[k] == u;
      assert k != i;
      var k' := if k < i then k else k - 1;
      assert r[k'] == u;
    }
  }

  /** `destroy`: the owner deletes the task; nobody else touches it. */
  function Destroy(s: Store, user: Option<UserId>, id: TaskId): (r: Result<Store, Error>)
    requires Valid(s)
    ensures (forall t :: t in s.tasks ==> t.id != id) ==> r == Err(NotFound)
    ensures (exists t :: t in s.tasks && t.id == id) && !OwnsTask(s, user, id) ==> r == Err(Forbidden)
    ensures r.Ok? <==> OwnsTask(s, user, id)
    ensures r.Ok? ==> Valid(r.value) && KeepsIdentities(s, r.value)
    ensures r.Ok? ==> r.value.users == s.users && r.value.categories == s.categories && r.value.nextId == s.nextId
    ensures r.Ok? ==> |r.value.tasks| == |s.tasks| - 1
    ensures r.Ok? ==> forall t :: t in r.value.tasks <==> t in s.tasks && t.id != id
  {
    match FindTask(s.tasks, id)
    case None => Err(NotFound)
    case Some(i) =>
      OwnerOfFound(s, user, id, i);
      if user != Some(s.tasks[i].owner) then Err(Forbidden)
      else
        RemoveAtValid(s, i);
        Ok(s.(tasks := RemoveAt(s.tasks, i)))
  }

  lemma RemoveAtValid(s: Store, i: nat)
    requires Valid(s) && i < |s.tasks|
    ensures Valid(s.(tasks := RemoveAt(s.tasks, i)))
    ensures KeepsIdentities(s, s.(tasks := RemoveAt(s.tasks, i)))
    ensures forall u :: u in RemoveAt(s.tasks, i) <==> u in s.tasks && u.id != s.tasks[i].id
  {
    RemoveAtUnique(s.tasks, i);
  }

  lemma OwnerOfFound(s: Store, user: Option<UserId>, id: TaskId, i: nat)
    requires Valid(s) && i < |s.tasks| && s.tasks[i].id == id
    ensures OwnsTask(s, user, id) <==> user == Some(s.tasks[i].owner)
  {
    assert s.tasks[i] in s.tasks;
    forall u | u in s.tasks && u.id == id
      ensures u == s.tasks[i]
    {
      var k :| 0 <= k < |s.tasks| && s.tasks[k] == u;
      IdPinsIndex(s.tasks, k, i);
    }
  }

  // ---------------------------------------------------------------- the store as a state machine

  datatype Command = CreateTask(req: Request) | UpdateTask(id: TaskId, req: Request) | DestroyTask(id: TaskId)

  /** One request against the store: the new state on success, the old one on any error. */
  function Step(s: Store, user: Option<UserId>, cmd: Command, parse: DateParser, stamp: int): (r: Store)
    requires Valid(s)
    ensures Valid(r)
    ensures !cmd.CreateTask? && !OwnsTask(s, user, cmd.id) ==> r == s
    ensures KeepsIdentities(s, r)
  {
    var result := match cmd
      case CreateTask(req) => Create(s, user, req, parse, stamp)
      case UpdateTask(id, req) => Update(s, user, id, req, parse, stamp)
      case DestroyTask(id) => Destroy(s, user, id);
    if result.Err? then s else result.value
  }
}

=== FILE: task_index_page.dfy ===
/**
 * The task list page: the three-facet filter over the tasks the server sent, and the quick
 * status change that sends nothing but the new status.
 */
module TaskIndexPage {
  import opened Wrappers
  import opened Tasks
  import opened Seqs
  import opened Schema
  import Text
  import TaskController

  /** The sentinel every select starts with and that disables its facet. */
  const AllFacet: string := "all"

  /** The three selections, as the selects hold them: a status name, a priority name, a category id. */
  datatype Facets = Facets(status: string, priority: string, category: string)

  const NoFacets: Facets := Facets(AllFacet, AllFacet, AllFacet)

  /** A JavaScript number is falsy exactly when it is 0. */
  predicate Truthy(id: CategoryId) { id != 0 }

  predicate StatusMatches(f: string, t: Task)
  {
    f == AllFacet || StatusName(t.status) == f
  }

  predicate PriorityMatches(f: string, t: Task)
  {
    f == AllFacet || PriorityName(t.priority) == f
  }

  /** `task.category_id && task.category_id.toString() === filterCategory`. */
  predicate CategoryMatches(f: string, t: Task)
  {
    f == AllFacet || (t.category.Some? && Truthy(t.category.value) && Text.ShowDecimal(t.category.value) == f)
  }

  predicate Matches(fs: Facets, t: Task)
  {
    StatusMatches(fs.status, t) && PriorityMatches(fs.priority, t) && CategoryMatches(fs.category, t)
  }

  /**
   * `filteredTasks`: the tasks that pass every active facet, in the order they came, each
   * occurrence kept or dropped on its own.
   */
  function FilterTasks(tasks: seq<Task>, fs: Facets): (r: seq<Task>)
    ensures IsSubsequence(r, tasks)
    ensures forall t :: t in r <==> t in tasks && Matches(fs, t)
    ensures forall t :: t in r ==>
              && (fs.status != AllFacet ==> StatusName(t.status) == fs.status)
              && (fs.priority != AllFacet ==> PriorityName(t.priority) == fs.priority)
              && (fs.category != AllFacet ==> t.category.Some? && Text.ShowDecimal(t.category.value) == fs.category)
    ensures forall t :: multiset(r)[t] == (if Matches(fs, t) then multiset(tasks)[t] else 0)
  {
    KeepIsSubsequence(tasks, t => Matches(fs, t));
    KeepMultiplicity(tasks, t => Matches(fs, t));
    Keep(tasks, t => Matches(fs, t))
  }

  /** With every select on "all", the list is shown as it came. */
  lemma FilterNoFacetsIsIdentity(tasks: seq<Task>)
    ensures FilterTasks(tasks, NoFacets) == tasks
  {
    KeepAll(tasks, t => Matches(NoFacets, t));
  }

  /** Filtering the filtered list again changes nothing. */
  lemma FilterIdempotent(tasks: seq<Task>, fs: Facets)
    ensures FilterTasks(FilterTasks(tasks, fs), fs) == FilterTasks(tasks, fs)
  {
    KeepIdempotent(tasks, t => Matches(fs, t));
  }

  function StatusOnly(fs: Facets): Facets { Facets(fs.status, AllFacet, AllFacet) }

  function PriorityOnly(fs: Facets): Facets { Facets(AllFacet, fs.priority, AllFacet) }

  function CategoryOnly(fs: Facets): Facets { Facets(AllFacet, AllFacet, fs.category) }

  /** The filter is the intersection of the three single-facet filters. */
  lemma FilterIsIntersection(tasks: seq<Task>, fs: Facets)
    ensures FilterTasks(tasks, fs)
         == FilterTasks(FilterTasks(FilterTasks(tasks, StatusOnly(fs)), PriorityOnly(fs)), CategoryOnly(fs))
  {
    var s1 := t => Matches(StatusOnly(fs), t);
    var s2 := t => Matches(PriorityOnly(fs), t);
    var s3 := t => Matches(CategoryOnly(fs), t);
    var s12 := t => Matches(StatusOnly(fs), t) && Matches(PriorityOnly(fs), t);
    KeepKeep(tasks, s1, s2, s12);
    KeepKeep(tasks, s12, s3, t => Matches(fs, t));
  }

  /** Applying two facet selections one after the other gives the same list in either order. */
  lemma FilterCommutes(tasks: seq<Task>, f: Facets, g: Facets)
    ensures FilterTasks(FilterTasks(tasks, f), g) == FilterTasks(FilterTasks(tasks, g), f)
  {
    var both := t => Matches(f, t) && Matches(g, t);
    KeepKeep(tasks, t => Matches(f, t), t => Matches(g, t), both);
    KeepKeep(tasks, t => Matches(g, t), t => Matches(f, t), both);
  }

  /**
   * Choosing a category in the select (its id printed in decimal) keeps exactly the tasks that
   * reference that category and pass the other facets; a task without a category never stays.
   */
  lemma CategoryFacetSelectsCategory(tasks: seq<Task>, fs: Facets, c: Category)
    requires fs.category == Text.ShowDecimal(c.id) && c.id != 0
    ensures forall t :: t in FilterTasks(tasks, fs) ==> t.category == Some(c.id)
    ensures forall t :: (t in tasks && t.category == Some(c.id) && StatusMatches(fs.status, t)
                         && PriorityMatches(fs.priority, t)) ==> t in FilterTasks(tasks, fs)
  {
    assert fs.category != AllFacet by {
      assert Text.IsDigit(fs.category[0]);
    }
    forall t | t in FilterTasks(tasks, fs)
      ensures t.category == Some(c.id)
    {
      assert CategoryMatches(fs.category, t);
      Text.ShowDecimalInjective(t.category.value, c.id);
    }
  }

  /** `handleStatusChange`: the PUT body carries the status and nothing else. */
  function StatusChangePayload(status: string): (req: TaskController.Request)
    ensures req.status == Some(TaskController.Str(status))
    ensures req.title.None? && req.description.None? && req.dueDate.None?
    ensures req.priority.None? && req.categoryId.None? && req.userId.None?
  {
    TaskController.Request(None, None, None, None, Some(TaskController.Str(status)), None, None)
  }

  /**
   * A quick status change by the task's owner always succeeds, whatever the old and new
   * status, and changes the status (and the update time, when the status differs) only.
   */
  lemma QuickStatusChange(s: Store, user: UserId, i: nat, st: Status, parse: TaskController.DateParser, stamp: int)
    requires Valid(s) && i < |s.tasks| && s.tasks[i].owner == user
    ensures var r := TaskController.Update(s, Some(user), s.tasks[i].id, StatusChangePayload(StatusName(st)), parse, stamp);
      && r.Ok?
      && |r.value.tasks| == |s.tasks|
      && r.value.tasks[i].status == st
      && r.value.tasks[i].(status := s.tasks[i].status, updatedAt := s.tasks[i].updatedAt) == s.tasks[i]
      && (st == s.tasks[i].status ==> r.value.tasks[i] == s.tasks[i])
      && (forall k :: 0 <= k < |s.tasks| && k != i ==> r.value.tasks[k] == s.tasks[k])
  {
    var t := s.tasks[i];
    var req := StatusChangePayload(StatusName(st));
    assert t in s.tasks;
    assert TaskController.OwnsTask(s, Some(user), t.id);
    assert TaskController.UpdateErrors(req, s.categories, parse) == {};
    forall k | 0 <= k < |s.tasks| && k != i
      ensures s.tasks[k].id != t.id
    {
      TaskController.IdPinsIndex(s.tasks, k, i);
    }
  }

  /**
   * The quick change goes through the same validation as the edit form: by the owner it
   * succeeds exactly for the three status names, and anything else is sent back on the
   * status field alone.
   */
  lemma StatusChangeValidated(s: Store, user: UserId, i: nat, text: string, parse: TaskController.DateParser, stamp: int)
    requires Valid(s) && i < |s.tasks| && s.tasks[i].owner == user
    ensures var r := TaskController.Update(s, Some(user), s.tasks[i].id, StatusChangePayload(text), parse, stamp);
      && (r.Ok? <==> ParseStatus(text).Some?)
      && (r.Err? ==> r == Err(TaskController.ValidationFailed({TaskController.StatusField})))
  {
    var t := s.tasks[i];
    var req := StatusChangePayload(text);
    assert t in s.tasks;
    assert TaskController.OwnsTask(s, Some(user), t.id);
    if text == "" {
      assert ParseStatus(text).None?;
    }
    assert TaskController.UpdateErrors(req, s.categories, parse)
        == TaskController.FailsAs(ParseStatus(text).Some?, TaskController.StatusField);
  }
}

=== FILE: tasks.dfy ===
/**
 * The records of the task manager: a task with its owner, optional category, title,
 * optional description and due date, priority, status and timestamps, and a category.
 */
module Tasks {
  import opened Wrappers

  type UserId = nat
  type TaskId = nat
  type CategoryId = nat

  /** A calendar date without a time, as a number of days since 1970-01-01. */
  type Day = int

  /** The `status` column's enumeration. */
  datatype Status = Pending | InProgress | Completed

  /** The `priority` column's enumeration. */
  datatype Priority = Low | Medium | High

  /** The text the database and the pages use for a status. */
  function StatusName(s: Status): string
  {
    match s
    case Pending => "pending"
    case InProgress => "in_progress"
    case Completed => "completed"
  }

  /** Reads a status: exactly the names `StatusName` writes are accepted, each as its status. */
  function ParseStatus(name: string): (r: Option<Status>)
    ensures forall s :: r == Some(s) <==> StatusName(s) == name
    ensures r.None? <==> name !in {"pending", "in_progress", "completed"}
  {
    if name == "pending" then Some(Pending)
    else if name == "in_progress" then Some(InProgress)
    else if name == "completed" then Some(Completed)
    else None
  }

  function PriorityName(p: Priority): string
  {
    match p
    case Low => "low"
    case Medium => "medium"
    case High => "high"
  }

  /** Reads a priority: exactly the names `PriorityName` writes are accepted. */
  function ParsePriority(name: string): (r: Option<Priority>)
    ensures forall p :: r == Some(p) <==> PriorityName(p) == name
    ensures r.None? <==> name !in {"low", "medium", "high"}
  {
    if name == "low" then Some(Low)
    else if name == "medium" then Some(Medium)
    else if name == "high" then Some(High)
    else None
  }

  /**
   * One row of `tasks`. The nullable columns (`category_id`, `description`, `due_date`) are
   * options; `title` and the owner are not. Timestamps are milliseconds since the epoch.
   */
  datatype Task = Task(
    id: TaskId,
    owner: UserId,
    category: Option<CategoryId>,
    title: string,
    description: Option<string>,
    dueDate: Option<Day>,
    priority: Priority,
    status: Status,
    createdAt: int,
    updatedAt: int)

  /** One row of `categories`. */
  datatype Category = Category(id: CategoryId, owner: UserId, name: string, color: string)

  function TaskKey(t: Task): TaskId { t.id }

  function CategoryKey(c: Category): CategoryId { c.id }

  /** The identifiers of the given categories. */
  function CategoryIds(cats: seq<Category>): (ids: set<CategoryId>)
    ensures forall c :: c in cats ==> c.id in ids
    ensures forall id :: id in ids ==> exists c :: c in cats && c.id == id
  {
    if |cats| == 0 then {} else {cats[0].id} + CategoryIds(cats[1..])
  }
}

=== FILE: text.dfy ===
/**
 * The string operations the pages rely on: `split`, `join`, `charAt(0).toUpperCase()`,
 * `Number.prototype.toString()` and the reading of an identifier sent as decimal text.
 */
module Text {
  import opened Wrappers

  /** `toUpperCase` on one character; only the ASCII letters are modelled. */
  function UpperAscii(c: char): char
  {
    if 'a' <= c <= 'z' then (c as int - 'a' as int + 'A' as int) as char else c
  }

  /** `s.split(sep)`: the runs between separators, in order; "" splits to [""]. */
  function Split(s: string, sep: char): (words: seq<string>)
    ensures |words| >= 1
    ensures forall w :: w in words ==> sep !in w
  {
    if |s| == 0 then [""]
    else
      var rest := Split(s[1..], sep);
      if s[0] == sep then [""] + rest
      else [[s[0]] + rest[0]] + rest[1..]
  }

  /** `words.join(sep)`. */
  function Join(words: seq<string>, sep: char): string
  {
    if |words| == 0 then ""
    else if |words| == 1 then words[0]
    else words[0] + [sep] + Join(words[1..], sep)
  }

  /** `w.charAt(0).toUpperCase() + w.slice(1)`. */
  function Capitalize(w: string): string
  {
    if |w| == 0 then "" else [UpperAscii(w[0])] + w[1..]
  }

  function CapitalizeAll(words: seq<string>): (r: seq<string>)
    ensures |r| == |words|
  {
    if |words| == 0 then [] else [Capitalize(words[0])] + CapitalizeAll(words[1..])
  }

  /** `s.split(sep).map(capitalize).join(joiner)`, as the dashboard formats a status. */
  function TitleWords(s: string, sep: char, joiner: char): string
  {
    Join(CapitalizeAll(Split(s, sep)), joiner)
  }

  /**
   * The same formatting stated one character at a time: each separator becomes `joiner`,
   * and a character is upper-cased exactly when it starts a word.
   */
  function TitleChars(s: string, sep: char, joiner: char, atWordStart: bool): (r: string)
    ensures |r| == |s|
  {
    if |s| == 0 then ""
    else if s[0] == sep then [joiner] + TitleChars(s[1..], sep, joiner, true)
    else [if atWordStart then UpperAscii(s[0]) else s[0]] + TitleChars(s[1..], sep, joiner, false)
  }

  lemma JoinConsChar(c: char, words: seq<string>, sep: char)
    requires |words| >= 1
    ensures Join([[c] + words[0]] + words[1..], sep) == [c] + Join(words, sep)
  {
    var ws := [[c] + words[0]] + words[1..];
    assert ws[1..] == words[1..];
  }

  lemma JoinEmptyHead(words: seq<string>, sep: char)
    requires |words| >= 1
    ensures Join([""] + words, sep) == [sep] + Join(words, sep)
  {
    assert ([""] + words)[1..] == words;
  }

  /** Splitting and joining with the same separator gives the text back. */
  lemma {:induction false} JoinSplit(s: string, sep: char)
    ensures Join(Split(s, sep), sep) == s
  {
    if |s| > 0 {
      JoinSplit(s[1..], sep);
      var rest := Split(s[1..], sep);
      if s[0] == sep {
        JoinEmptyHead(rest, sep);
      } else {
        JoinConsChar(s[0], rest, sep);
      }
      assert s == [s[0]] + s[1..];
    }
  }

  /** Inside one word only its first character can change. */
  lemma {:induction false} TitleCharsWord(w: string, sep: char, joiner: char, atWordStart: bool)
    requires sep !in w && |w| > 0
    ensures TitleChars(w, sep, joiner, atWordStart) == [if atWordStart then UpperAscii(w[0]) else w[0]] + w[1..]
  {
    TitleCharsRest(w[1..], sep, joiner);
  }

  lemma {:induction false} TitleCharsRest(w: string, sep: char, joiner: char)
    requires sep !in w
    ensures TitleChars(w, sep, joiner, false) == w
  {
    if |w| > 0 {
      TitleCharsRest(w[1..], sep, joiner);
    }
  }

  /** A separator ends the formatting of one word and starts the next afresh. */
  lemma {:induction false} TitleCharsAtSeparator(w: string, rest: string, sep: char, joiner: char, atWordStart: bool)
    requires sep !in w
    ensures TitleChars(w + [sep] + rest, sep, joiner, atWordStart)
         == TitleChars(w, sep, joiner, atWordStart) + [joiner] + TitleChars(rest, sep, joiner, true)
  {
    if |w| == 0 {
      assert w + [sep] + rest == [sep] + rest;
    } else {
      assert (w + [sep] + rest)[1..] == w[1..] + [sep] + rest;
      TitleCharsAtSeparator(w[1..], rest, sep, joiner, false);
    }
  }

  /** Both readings of the formatting agree, with or without the first word capitalised. */
  lemma {:induction false} TitleWordsChars(s: string, sep: char, joiner: char)
    ensures Join(CapitalizeAll(Split(s, sep)), joiner) == TitleChars(s, sep, joiner, true)
    ensures var ws := Split(s, sep);
      Join([ws[0]] + CapitalizeAll(ws[1..]), joiner) == TitleChars(s, sep, joiner, false)
  {
    if |s| > 0 {
      TitleWordsChars(s[1..], sep, joiner);
      var rest := Split(s[1..], sep);
      var tail := [rest[0]] + CapitalizeAll(rest[1..]);
      if s[0] == sep {
        assert Split(s, sep) == [""] + rest;
        assert CapitalizeAll([""] + rest) == [""] + CapitalizeAll(rest);
        JoinEmptyHead(CapitalizeAll(rest), joiner);
        assert ([""] + rest)[1..] == rest;
      } else {
        var ws := Split(s, sep);
        assert ws == [[s[0]] + rest[0]] + rest[1..];
        assert ws[1..] == rest[1..];
        assert Capitalize([s[0]] + rest[0]) == [UpperAscii(s[0])] + rest[0];
        assert CapitalizeAll(ws) == [[UpperAscii(s[0])] + rest[0]] + CapitalizeAll(rest[1..]);
        JoinConsChar(UpperAscii(s[0]), tail, joiner);
        JoinConsChar(s[0], tail, joiner);
        assert tail[0] == rest[0] && tail[1..] == CapitalizeAll(rest[1..]);
      }
    }
  }

  function IsDigit(c: char): bool { '0' <= c <= '9' }

  function DigitValue(c: char): nat
    requires IsDigit(c)
  {
    c as int - '0' as int
  }

  function DigitChar(d: nat): (c: char)
    requires d < 10
    ensures IsDigit(c) && DigitValue(c) == d
  {
    ('0' as int + d) as char
  }

  /** The decimal value of a non-empty run of digits. */
  function DigitsValue(s: string): nat
    requires forall i :: 0 <= i < |s| ==> IsDigit(s[i])
  {
    if |s| == 0 then 0 else DigitsValue(s[..|s| - 1]) * 10 + DigitValue(s[|s| - 1])
  }

  /** Reads an identifier written in decimal; anything but a non-empty run of digits is refused. */
  function ParseDecimal(s: string): (r: Option<nat>)
    ensures r.Some? <==> |s| > 0 && forall i :: 0 <= i < |s| ==> IsDigit(s[i])
  {
    if |s| > 0 && forall i :: 0 <= i < |s| ==> IsDigit(s[i]) then Some(DigitsValue(s)) else None
  }

  /** `n.toString()` for a non-negative integer. */
  function ShowDecimal(n: nat): (s: string)
    ensures |s| > 0 && forall i :: 0 <= i < |s| ==> IsDigit(s[i])
  {
    if n < 10 then [DigitChar(n)] else ShowDecimal(n / 10) + [DigitChar(n % 10)]
  }

  /** Reading back what `toString` wrote gives the number. */
  lemma {:induction false} ParseShowDecimal(n: nat)
    ensures ParseDecimal(ShowDecimal(n)) == Some(n)
  {
    var s := ShowDecimal(n);
    if n < 10 {
      assert s[..|s| - 1] == [];
      assert DigitsValue(s) == DigitValue(s[0]);
    } else {
      ParseShowDecimal(n / 10);
      assert s[..|s| - 1] == ShowDecimal(n / 10);
      assert DigitsValue(s) == (n / 10) * 10 + n % 10;
    }
  }

  /** Hence two identifiers print alike only when they are equal. */
  lemma ShowDecimalInjective(m: nat, n: nat)
    ensures ShowDecimal(m) == ShowDecimal(n) <==> m == n
  {
    if ShowDecimal(m) == ShowDecimal(n) {
      ParseShowDecimal(m);
      ParseShowDecimal(n);
    }
  }
}

=== FILE: wrappers.dfy ===
/** Failure-compatible wrappers shared by every module of the task manager model. */
module Wrappers {

  /** An optional value: a nullable column, an absent request key, a missing lookup. */
  datatype Option<+T> = None | Some(value: T)

  /** The outcome of a request handler: the new state, or the error the handler answers with. */
  datatype Result<+T, +E> = Ok(value: T) | Err(error: E)
}
